=== FILE: README.md ===
# Medspa booking core in Dafny

This project models the booking and catalog-consistency core of a small
medspa management service. The service itself is written in Python on top
of PostgreSQL.

- A **medspa** owns **services** and **appointments**.
- Every service is filed under a **category → type → product** chain of
  the catalog. Products also name a **supplier**.
- An appointment books services through the `appointment_services` link
  table. Its total duration and total price are derived from the linked
  services.
- The HTTP handlers for creating and updating appointments and services
  each run as one transaction. They either commit or roll back.

## How the model is built

- **Data.** The database is a `Schema.Store`: one map from id to row per
  table, plus the link table as a set of `(appointment id, service id)`
  pairs.
- **Operations.** Every model method and handler is a pure function from a
  store to a `Result` (or a `Handlers.Reply` carrying the status code, the
  body and the resulting store).
- **Commit and rollback.** A commit hands back the changed store. A
  rollback hands back the store the request started with.
- **Truthiness.** Python truthiness is explicit. `Base.Truthy` treats
  `None` and `0` as false. `Base.TruthyText` treats `None` and `""` as
  false. An object whose id is falsy counts as unsaved.
- **Errors.** A `ValueError` becomes `Failure.ValueError`, which the
  handlers answer with 400. An `AttributeError`, a `TypeError`, or a
  database error (a foreign-key violation, an update that returns no row)
  becomes `Failure.RuntimeFault`, answered with 500.
- **Request bodies.** A JSON key that may be absent is a `Base.Field`:
  `Omitted`, or `Sent(None)` for `null`, or `Sent(Some(v))`.

### Modules

| module | file | models |
|---|---|---|
| `Base` | base.dfy | the option, field and result types, and truthiness |
| `Schema` | schema.dfy | the tables and the link set |
| `Totals` | totals.dfy | sums over linked services |
| `ServiceTypes` | service_type.dfy | `app/models/service_type.py` |
| `ServiceProducts` | service_product.dfy | `app/models/service_product.py` |
| `Suppliers` | service_product_supplier.dfy | `app/models/service_product_supplier.py` |
| `Services` | service.dfy | `app/models/service.py` |
| `Appointments` | appointment.dfy | `app/models/appointment.py` |
| `Medspas` | medspa.dfy | `app/models/medspa.py` |
| `Handlers` | handlers.dfy | the shared status-code rule |
| `AppointmentsResource` | appointments_resource.dfy | `app/resources/appointments.py` |
| `ServicesResource` | services_resource.dfy | `app/resources/services.py` |
| `Integrity` | integrity.dfy | invariants across operations |

### Behaviour worth knowing

- **Missing catalog rows.** When the type or product of a service has no
  row, `validate_hierarchy` dereferences `None`, and the handler answers
  500.
- **Type and product updates.** These are not checked, so a type's
  `category_id` and a product's `type_id` can be changed. The lemma
  `Integrity.TypeUpdateBreaksCatalog` shows that such a change strands a
  service outside the hierarchy.
- **Price 0.** A service price of 0 is rejected on create, because the
  required-field check uses truthiness.
- **Create without `medspa_id`.** An appointment create with no
  `medspa_id` key is answered with 400 before anything is read.
- **Replacing services on update.** An appointment update that carries
  `service_ids` never replaces them. It fails with 500 (see Findings).

## Model

| member | source | states |
|---|---|---|
| Handlers.FailureCode | app/resources/appointments.py:49-54 | a `ValueError` is answered with 400 and every other exception with 500 |
| ServiceTypes.GetById | app/models/service_type.py:50-58 | the type row for a stored id; nothing for an unknown or absent id |
| ServiceTypes.Save | app/models/service_type.py:71-106 | create: refuses a falsy name, then a falsy category, and otherwise inserts under a fresh id; update: overwrites name and category with no check and fails when the row is gone; on success the saved row reads back, and only that row changes |
| ServiceTypes.Category | app/models/service_type.py:9-14 | no lookup for a falsy category id; otherwise the category row, if any |
| ServiceTypes.Products | app/models/service_type.py:16-21 | no products for an unsaved type; otherwise exactly the products whose type is this one |
| ServiceTypes.Delete | app/models/service_type.py:108-117 | refused for an unsaved type; otherwise the row is gone afterwards, the answer says whether it existed, other rows are kept, and no row is added |
| ServiceProducts.GetById | app/models/service_product.py:53-61 | the product row for a stored id; nothing otherwise |
| ServiceProducts.Save | app/models/service_product.py:85-124 | create: refuses a falsy name, then a falsy type, then a falsy supplier, in that order, and otherwise inserts under a fresh id; update is unchecked; the saved row reads back and only it changes |
| ServiceProducts.TypeOf | app/models/service_product.py:10-15 | no lookup for a falsy type id; otherwise the type row, if any |
| ServiceProducts.SupplierOf | app/models/service_product.py:17-22 | no lookup for a falsy supplier id; otherwise the supplier row, if any |
| ServiceProducts.Delete | app/models/service_product.py:126-135 | refused for an unsaved product; otherwise the row is gone, the answer says whether it existed, other rows are kept, and no row is added |
| Suppliers.GetById | app/models/service_product_supplier.py:40-48 | the supplier row for a stored id; nothing otherwise |
| Suppliers.Save | app/models/service_product_supplier.py:50-81 | create refuses a falsy name and otherwise inserts under a fresh id; update is unchecked; the saved row reads back |
| Suppliers.Products | app/models/service_product_supplier.py:8-13 | no products for an unsaved supplier; otherwise exactly the products naming it |
| Suppliers.Delete | app/models/service_product_supplier.py:83-98 | for a saved supplier, the delete succeeds exactly when no product references it; when some do it refuses with the message naming how many products do, and writes nothing; a success removes only that row |
| Services.GetById | app/models/service.py:169-177 | a service object exactly for a stored id, carrying that id and the row's medspa |
| Services.ValidateHierarchy | app/models/service.py:40-48 | succeeds exactly when the type belongs to the category and the product to the type; names the type mismatch before the product mismatch; a missing type or product row is a runtime fault, not a `ValueError` |
| Services.Merge | app/models/service.py:212-226 | each column takes the object's value when it is not `None` and keeps the stored value otherwise, 0 and "" included |
| Services.Create | app/models/service.py:229-247 | "Missing required fields" exactly when a required field is falsy; success exactly when the fields are present and the triple is in the hierarchy; a success inserts one row under a fresh id and writes nothing else |
| Services.Update | app/models/service.py:193-227 | "Service not found" for an unknown id; the merged triple is re-validated only when all three ids are truthy; success exactly when the row exists and that check passes; only the service's row changes, to the COALESCE merge |
| Services.Save | app/models/service.py:190-257 | an object with a truthy id takes the update rules, any other the create rules |
| Services.AddToAppointment | app/models/service.py:68-95 | refuses an unsaved service, an unknown appointment and an appointment of another medspa, in that order; success exactly when all pass and the service row exists; adds exactly that link and reports whether it was new |
| Services.AttachIsIdempotent | app/models/service.py:86-93 | a second identical attach succeeds, leaves the store as it is and reports no new link |
| Services.RemoveFromAppointment | app/models/service.py:97-112 | no-op for an unsaved service; otherwise removes exactly that link and reports whether it was there |
| Services.Delete | app/models/service.py:259-271 | refused for an unsaved service; otherwise removes the row and every link to it, and keeps all other rows and links |
| Services.UpcomingAppointments | app/models/service.py:114-124 | the linked appointments that start after `now` and are still scheduled; none for an unsaved service; a link to a missing appointment raises |
| Appointments.ParseStatus | app/models/appointment.py:5-8 | exactly the three status names are statuses, and each parses to the status that carries that name |
| Appointments.New | app/models/appointment.py:10-16 | a fresh object is unsaved and scheduled, with the medspa and start time it was given |
| Appointments.AddService | app/models/appointment.py:38-47 | refuses an unsaved appointment, then an unsaved service, then a service of another medspa, before any write; success exactly when those pass and the service's link can be written; adds exactly one link |
| Appointments.RemoveService | app/models/appointment.py:49-53 | no-op when either side is unsaved; otherwise removes exactly that link |
| Appointments.TotalOf | app/models/appointment.py:55-87 | 0 for an unsaved appointment or one without linked services |
| Appointments.AddServiceMovesTotals | app/models/appointment.py:38-87 | after a successful attach each total grows by the service's value exactly when the link is new, and is unchanged otherwise |
| Appointments.RemoveServiceMovesTotals | app/models/appointment.py:49-87 | after a detach each total shrinks by the service's value exactly when a link to a stored service was removed |
| Appointments.Save | app/models/appointment.py:161-198 | "Medspa ID and start time are required" before any write; an update needs an existing row; a create gets a fresh positive id; only the appointment's row changes |
| Appointments.Delete | app/models/appointment.py:200-212 | refused for an unsaved appointment; otherwise removes the row and all of its links and keeps everything else |
| Appointments.OrderByStart | app/models/appointment.py:128 | returns the chosen appointments, each once, ordered by start time |
| Appointments.GetAll | app/models/appointment.py:112-138 | exactly the appointments matching the truthy status and the given day, each once, ordered by start time |
| Medspas.GetById | app/models/medspa.py:69-77 | the medspa row for a stored id; nothing otherwise |
| Medspas.Save | app/models/medspa.py:79-118 | create needs all four contact fields truthy ("All fields are required"); update is unchecked and fails when the row is gone; the saved row reads back |
| Medspas.AddService | app/models/medspa.py:27-32 | refused for an unsaved medspa; otherwise the service is re-homed to this medspa and saved under the service rules |
| Medspas.ServicesOf | app/models/medspa.py:21-25 | none for an unsaved medspa; otherwise exactly the services of this medspa |
| Medspas.AppointmentsOf | app/models/medspa.py:15-19 | none for an unsaved medspa; otherwise exactly this medspa's appointments, each once, ordered by start time |
| Medspas.Delete | app/models/medspa.py:120-129 | refused for an unsaved medspa; otherwise the row is gone, the answer says whether it existed, other rows are kept, and no row is added |
| Totals.SumOverInsert | app/models/appointment.py:55-70 | a new linked service adds exactly its value to the sum |
| Totals.SumOverRemove | app/models/appointment.py:55-70 | an unlinked service subtracts exactly its value |
| Totals.SumListIsSumOver | app/models/appointment.py:55-87 | summing a duplicate-free list of services gives the total over its set of ids |
| AppointmentsResource.AttachAll | app/resources/appointments.py:31-40 | the loop ends attached exactly when every listed id is bookable, and then adds exactly the listed links; otherwise it stops at the first id that is not bookable, as a 404 when that id has no row and as a `ValueError` otherwise |
| AppointmentsResource.FirstBad | app/resources/appointments.py:31-40 | the position of the first listed id that is not a stored service of the medspa with a truthy id; every id before it is one |
| AppointmentsResource.Create | app/resources/appointments.py:8-56 | 400 without `medspa_id` and 404 for an unknown medspa, before any write; 400 for a falsy medspa id or a missing start time, 500 for a `null` service list; otherwise the first listed id that is not a service of that medspa decides: 404 "Service N not found" when it has no row, 400 when it has; 201 exactly when the medspa, start time and every listed service are acceptable; on 201 one new scheduled appointment and exactly the listed links are committed and the totals are read from them; on any other code the store is unchanged |
| AppointmentsResource.FreshBookingCountsEachServiceOnce | app/models/appointment.py:55-87 | booking a list of services on an appointment without links yields totals that count each listed service once, at its first occurrence |
| AppointmentsResource.CreateTotalsCountEachServiceOnce | app/resources/appointments.py:31-45 | the totals of a created appointment count each listed service once, even when the request repeats an id |
| AppointmentsResource.Finish | app/resources/appointments.py:144-152 | the save decides 200; a failed save rolls back to the request's starting store |
| AppointmentsResource.Amend | app/resources/appointments.py:115-124 | a sent status sets completed or canceled, an omitted one keeps the loaded status; a sent start time replaces the loaded one; id and medspa are kept |
| AppointmentsResource.UpdateAsWritten | app/resources/appointments.py:107-160 | 404 for an unknown appointment and 400 for any status but completed or canceled, before any write; any request with `service_ids` answers 500 and changes nothing; a request without `service_ids` is answered exactly as by the replace-semantics update |
| AppointmentsResource.ReplaceServices | app/resources/appointments.py:127-142 | a link to a service with no row, or a `null` list, raises a runtime fault; otherwise the loop stops at the first listed id that is not a service of the appointment's medspa, as a 404 when it has no row; on success the appointment keeps exactly the listed services, with a truthy id, and other appointments' links are unchanged |
| AppointmentsResource.Update | app/resources/appointments.py:107-160 | the checks of `UpdateAsWritten`; without `service_ids` a stored appointment with truthy ids and a start time answers 200; a `null` list or a dangling link answers 500; otherwise the first listed id that is not a service of the appointment's medspa decides 404 (no row) or 400, and a list of such services answers 200; on 200 status and start time are updated as sent, the body reports the updated appointment with the totals over its new links, the appointment's services are exactly the listed ones, and nothing else changes; any status transition is accepted; any failure rolls back |
| AppointmentsResource.ReplaceScenario | app/resources/appointments.py:127-130 | completing an appointment while switching it to another service: 500 as written, 200 with only the new service and its totals as intended |
| ServicesResource.Draft | app/resources/services.py:8 | an omitted key and a `null` both leave the attribute `None` |
| ServicesResource.Amend | app/resources/services.py:30-31 | every key sent overwrites the attribute, `null` included; the others keep the loaded value |
| ServicesResource.Create | app/resources/services.py:4-19 | 201 exactly when the required fields are truthy and the triple is in the hierarchy; with the fields present, a type of another category and a product of another type answer 400 with their messages, and a missing type or product row answers 500; a failure leaves the store unchanged; on 201 the new row holds exactly the request's columns and the answer is that row |
| ServicesResource.UpdateAsWritten | app/resources/services.py:21-43 | 404 for an unknown id; 200 when a merged catalog id is 0; otherwise 200 exactly when the merged triple is in the hierarchy, with 400 for a type or product mismatch and 500 for a missing type or product row; on 200 only the service's row changes, to the COALESCE merge of the amended object; a price sent as `null` is answered `null` although the stored price is kept |
| ServicesResource.Update | app/resources/services.py:21-43 | the same codes and store as `UpdateAsWritten`; on 200 the answer is the stored row |
| ServicesResource.NullIsOmitted | app/models/service.py:211-226 | for a service id other than 0, sending `null` for a column has the same code and store as leaving the key out |
| ServicesResource.EchoScenario | app/resources/services.py:30-35 | renaming a service while sending `"price": null` keeps price 30000 in the store, is answered with `null` as written, and with 30000 as intended |
| Integrity.AttachKeepsLinkInvariants | app/models/appointment.py:38-47 | attaching an in-sync service keeps every link between stored rows of the same medspa |
| Integrity.DeletesKeepLinksIntact | app/models/service.py:259-271 | deleting a service or an appointment leaves no dangling link |
| Integrity.CreateKeepsLinkInvariants | app/resources/appointments.py:8-56 | an appointment create keeps every link between stored rows of the same medspa |
| Integrity.UpdateKeepsLinkInvariants | app/resources/appointments.py:107-160 | an appointment update, with replace semantics, keeps every link between stored rows of the same medspa |
| Integrity.ServiceMoveBreaksSameMedspa | app/models/service.py:211-224 | moving a booked service to another medspa keeps its links, so a link then joins two medspas |
| Integrity.ServiceSaveKeepsCatalog | app/models/service.py:203-234 | a service save that sets no catalog id to 0 keeps every service inside the hierarchy |
| Integrity.TypeUpdateBreaksCatalog | app/models/service_type.py:74-83 | re-filing a type under another category leaves a service that uses it outside the hierarchy |

## Left out

- **Time.** The clock and timezones are outside the model.
  - `Services.UpcomingAppointments` takes the current instant as a
    parameter.
  - A start time is an integer count of seconds.
  - `DATE(start_time)` is that count divided by 86400.
  - Comparing naive and aware datetimes is not modelled.
- **Connections.** Connections, cursors, `conn.close()` and the
  `finally` blocks are not modelled. `app/db/connection.py` and
  `app/server.py` are not part of this model.
- **Id sequences.** Every insert gets some fresh positive id. PostgreSQL
  sequences do not roll back with the transaction, and the model does not
  say which id is chosen.
- **Other payload keys.** Keys other than the modelled columns are not
  modelled: `id`, `created_at`, `updated_at`, and unknown keys passed to
  `Appointment(**data)`, `Service(**data)` or the `setattr` loop.
  - An unknown key raises `TypeError` in the constructors.
  - An `id` key turns a create into an update.
- **Non-integer JSON values.** Values of the wrong JSON type are not
  modelled: a string price, or a `service_ids` that is not a list.
  `null` is modelled.
- **Listing order.** Lists ordered by name (`get_by_medspa_id` for
  services, and the catalog `get_all`s) are modelled as sets.
- **Read-only handlers.** `get_by_id` and `get_all` in the resources only
  read and format. So do the medspa, category, type, product and supplier
  resources, and `to_dict`.
- **Categories.** `app/models/service_category.py` is not part of this
  model. A category is only a row that types point to.
- **Foreign-key actions.** What the database does when a medspa, type,
  product or category row is deleted while referenced is not modelled. The
  only modelled constraint is the link table's foreign key to services.
- Integrity.ServiceSaveKeepsCatalog: assumes that no catalog id is set to
  0, because an update whose merged triple contains a 0 skips the
  hierarchy check.
- Integrity.AttachKeepsLinkInvariants: assumes that the service object
  carries its row's medspa, because `add_service` compares the object's
  `medspa_id`, not the stored one.
- Appointments.TotalOf: its own contract covers only the zero cases. The
  sum is characterised by `Appointments.AddServiceMovesTotals`,
  `Appointments.RemoveServiceMovesTotals` and
  `AppointmentsResource.CreateTotalsCountEachServiceOnce`.
- **Prices.** The source keeps prices as decimals. The model keeps them
  as integer cents, which holds every two-place decimal exactly.
- Services.UpcomingAppointments: returns the ids as a set, without the
  order of the link rows.
- AppointmentsResource.Update, AppointmentsResource.UpdateAsWritten,
  ServicesResource.UpdateAsWritten, ServicesResource.Update: the success
  clauses speak of ids other than 0. Loading row 0 makes an object whose
  id is falsy, and saving it takes the create path. A serial column never
  issues 0.
- ServicesResource.NullIsOmitted: holds for ids other than 0 only. At a
  stored id 0 the loaded object takes the create path, where a column sent
  as `null` fails the required-field check (400) while the same key left
  out keeps the loaded value (200).

## Findings

| source | as written | input that shows it | evidently intended | confidence | as-written member | corrected member |
|---|---|---|---|---|---|---|
| app/resources/appointments.py:129 | `appointment.services(conn=conn)` reads a property whose getter (app/models/appointment.py:18-19) needs `conn`, so it raises `TypeError` | update of an appointment with `{"status": "completed", "service_ids": [20]}` | the appointment's services are replaced by the listed ones | high, not executed | AppointmentsResource.UpdateAsWritten, AppointmentsResource.ReplaceScenario | AppointmentsResource.Update |
| app/resources/services.py:30-35 | the answer is the in-memory object after `setattr`, while the row is written with COALESCE | update of a service with `{"name": "Botox 50", "price": null}` | the answer shows the stored row (price kept) | medium, not executed | ServicesResource.UpdateAsWritten, ServicesResource.EchoScenario | ServicesResource.Update |

=== FILE: appointment.dfy ===
/** `Appointment` (app/models/appointment.py): a booking at a medspa, its
    status values, its side of the link table, the totals derived from the
    linked services, and the date/status listing. */
module Appointments {
  import opened Base
  import opened Schema
  import opened Totals
  import Services

  const AddToUnsaved := "Cannot add services to unsaved Appointment"
  const AddUnsavedService := "Cannot add unsaved Service"
  const Required := "Medspa ID and start time are required"
  const DeleteUnsaved := "Cannot delete unsaved Appointment"

  /** Seconds per day: `DATE(start_time)` of a timestamp in seconds. */
  const SecondsPerDay := 86400

  /** The status an `Appointment` gets when none is passed to its constructor. */
  const DefaultStatus := Scheduled

  /** The status values as stored in the `status` column. */
  function StatusName(s: Status): string {
    match s
    case Scheduled => "scheduled"
    case Completed => "completed"
    case Canceled => "canceled"
  }

  /** Reads a stored status name back; only the three names are statuses. */
  function ParseStatus(name: string): (r: Option<Status>)
    ensures r.Some? <==> name == "scheduled" || name == "completed" || name == "canceled"
    ensures r.Some? ==> StatusName(r.value) == name
  {
    if name == "scheduled" then Some(Scheduled)
    else if name == "completed" then Some(Completed)
    else if name == "canceled" then Some(Canceled)
    else None
  }

  /** An in-memory `Appointment` object; an id that is `None` or `0` marks an
      unsaved appointment, and a `None` start time is a falsy one. */
  datatype AppointmentObj = AppointmentObj(
    id: Option<int>,
    medspaId: Option<int>,
    startTime: Option<int>,
    status: Status)

  /** `Appointment(medspa_id=..., start_time=...)`: unsaved and scheduled. */
  function New(medspaId: Option<int>, startTime: Option<int>): (obj: AppointmentObj)
    ensures obj.status == DefaultStatus && obj.id.None?
    ensures obj.medspaId == medspaId && obj.startTime == startTime
  {
    AppointmentObj(None, medspaId, startTime, DefaultStatus)
  }

  /** `Appointment.from_db_row`. */
  function FromRow(id: int, row: Appointment): AppointmentObj {
    AppointmentObj(Some(id), Some(row.medspaId), Some(row.startTime), row.status)
  }

  // ---------------------------------------------------------------------------
  // The link table, seen from the appointment
  // ---------------------------------------------------------------------------

  /** `Appointment.add_service`: refuses an unsaved appointment, an unsaved
      service, and a service of another medspa, in that order and before any
      write; otherwise `Service.add_to_appointment` decides. */
  function AddService(st: Store, appt: AppointmentObj, svc: Services.ServiceObj): (r: Result<(Store, bool)>)
    ensures !Truthy(appt.id) ==> r == Err(ValueError(AddToUnsaved))
    ensures Truthy(appt.id) && !Truthy(svc.id) ==> r == Err(ValueError(AddUnsavedService))
    ensures Truthy(appt.id) && Truthy(svc.id) && svc.medspaId != appt.medspaId ==>
              r == Err(ValueError(Services.OtherMedspa))
    ensures r.Ok? <==>
              && Truthy(appt.id) && Truthy(svc.id)
              && svc.medspaId == appt.medspaId
              && appt.id.value in st.appointments
              && Some(st.appointments[appt.id.value].medspaId) == svc.medspaId
              && svc.id.value in st.services
    ensures r.Ok? ==> var (st', added) := r.value;
              && st' == st.(links := st.links + {(appt.id.value, svc.id.value)})
              && (added <==> (appt.id.value, svc.id.value) !in st.links)
  {
    if !Truthy(appt.id) then Err(ValueError(AddToUnsaved))
    else if !Truthy(svc.id) then Err(ValueError(AddUnsavedService))
    else if svc.medspaId != appt.medspaId then Err(ValueError(Services.OtherMedspa))
    else Services.AddToAppointment(st, svc, appt.id.value)
  }

  /** `Appointment.remove_service`: `false` when either side is unsaved,
      otherwise `Service.remove_from_appointment`. */
  function RemoveService(st: Store, appt: AppointmentObj, svc: Services.ServiceObj): (r: (Store, bool))
    ensures !Truthy(appt.id) || !Truthy(svc.id) ==> r == (st, false)
    ensures Truthy(appt.id) && Truthy(svc.id) ==>
              && r.0 == st.(links := st.links - {(appt.id.value, svc.id.value)})
              && (r.1 <==> (appt.id.value, svc.id.value) in st.links)
  {
    if !Truthy(appt.id) || !Truthy(svc.id) then (st, false)
    else Services.RemoveFromAppointment(st, svc, appt.id.value)
  }

  // ---------------------------------------------------------------------------
  // Derived totals
  // ---------------------------------------------------------------------------

  /** The sum of column `k` over the services linked to the appointment,
      recomputed from the current link set; 0 for an unsaved appointment. */
  function TotalOf(st: Store, appt: AppointmentObj, k: Measure): (total: int)
    ensures !Truthy(appt.id) ==> total == 0
    ensures Truthy(appt.id) && LinkedServices(st, appt.id.value) == {} ==> total == 0
  {
    if !Truthy(appt.id) then 0
    else SumOver(LinkedServices(st, appt.id.value), st.services, k)
  }

  /** `Appointment.total_duration`. */
  function TotalDuration(st: Store, appt: AppointmentObj): int {
    TotalOf(st, appt, Duration)
  }

  /** `Appointment.total_price`, in cents. */
  function TotalPrice(st: Store, appt: AppointmentObj): int {
    TotalOf(st, appt, Price)
  }

  /** The totals follow the link set: a successful attach adds the service's
      value exactly when it created a new link, and changes nothing otherwise. */
  lemma AddServiceMovesTotals(st: Store, appt: AppointmentObj, svc: Services.ServiceObj, k: Measure)
    requires AddService(st, appt, svc).Ok?
    ensures var (st', added) := AddService(st, appt, svc).value;
            TotalOf(st', appt, k) ==
              TotalOf(st, appt, k) + (if added then Weight(st.services[svc.id.value], k) else 0)
  {
    var (st', added) := AddService(st, appt, svc).value;
    var a, s := appt.id.value, svc.id.value;
    if added {
      assert LinkedServices(st', a) == LinkedServices(st, a) + {s};
      SumOverInsert(LinkedServices(st, a), s, st.services, k);
    } else {
      assert LinkedServices(st', a) == LinkedServices(st, a);
    }
  }

  /** A successful detach subtracts the service's value exactly when it
      removed a link to a stored service. */
  lemma RemoveServiceMovesTotals(st: Store, appt: AppointmentObj, svc: Services.ServiceObj, k: Measure)
    ensures var (st', removed) := RemoveService(st, appt, svc);
            TotalOf(st', appt, k) ==
              TotalOf(st, appt, k) -
                (if removed && svc.id.value in st.services then Weight(st.services[svc.id.value], k) else 0)
  {
    var (st', removed) := RemoveService(st, appt, svc);
    if Truthy(appt.id) && Truthy(svc.id) {
      var a, s := appt.id.value, svc.id.value;
      if removed && s in st.services {
        assert LinkedServices(st', a) == LinkedServices(st, a) - {s};
        SumOverRemove(LinkedServices(st, a), s, st.services, k);
      } else {
        assert LinkedServices(st', a) == LinkedServices(st, a);
      }
    }
  }

  // ---------------------------------------------------------------------------
  // Save, delete
  // ---------------------------------------------------------------------------

  /** The row `Appointment.save` writes for an object that passed its check. */
  function RowOf(obj: AppointmentObj): Appointment
    requires obj.medspaId.Some? && obj.startTime.Some?
  {
    Appointment(obj.medspaId.value, obj.startTime.value, obj.status)
  }

  /** `Appointment.save`: refuses, before any write, an object without a
      truthy medspa id and start time; then overwrites the row of a truthy id
      (raising when there is none) or inserts a new one. The result is the
      store and the object refreshed from the returned row. */
  function Save(st: Store, obj: AppointmentObj): (r: Result<(Store, AppointmentObj)>)
    ensures !Truthy(obj.medspaId) || obj.startTime.None? ==> r == Err(ValueError(Required))
    ensures Truthy(obj.medspaId) && obj.startTime.Some? && Truthy(obj.id) ==>
              (r.Ok? <==> obj.id.value in st.appointments)
    ensures Truthy(obj.medspaId) && obj.startTime.Some? && !Truthy(obj.id) ==> r.Ok?
    ensures r.Err? && Truthy(obj.medspaId) && obj.startTime.Some? ==> r.failure.RuntimeFault?
    ensures r.Ok? ==> var (st', saved) := r.value;
              && saved.id.Some?
              && saved == obj.(id := saved.id)
              && (Truthy(obj.id) ==> saved.id == obj.id)
              && (!Truthy(obj.id) ==> saved.id.value > 0 && saved.id.value !in st.appointments)
              && st' == st.(appointments := st.appointments[saved.id.value := RowOf(obj)])
  {
    if !Truthy(obj.medspaId) || obj.startTime.None? then Err(ValueError(Required))
    else if Truthy(obj.id) then
      var appointments :- UpdateRow(st.appointments, obj.id.value, RowOf(obj));
      Ok((st.(appointments := appointments), obj))
    else
      var (appointments, k) := InsertRow(st.appointments, RowOf(obj));
      Ok((st.(appointments := appointments), obj.(id := Some(k))))
  }

  /** `Appointment.delete`: refused for an unsaved appointment; otherwise
      removes every link of the appointment, then the row, and reports whether
      the row existed. */
  function Delete(st: Store, appt: AppointmentObj): (r: Result<(Store, bool)>)
    ensures !Truthy(appt.id) ==> r == Err(ValueError(DeleteUnsaved))
    ensures Truthy(appt.id) ==> r.Ok?
    ensures r.Ok? ==> var (st', existed) := r.value;
              && (existed <==> appt.id.value in st.appointments)
              && st'.appointments.Keys == st.appointments.Keys - {appt.id.value}
              && (forall a :: a in st'.appointments ==> st'.appointments[a] == st.appointments[a])
              && (forall l :: l in st'.links <==> l in st.links && l.0 != appt.id.value)
              && st' == st.(appointments := st'.appointments, links := st'.links)
  {
    if !Truthy(appt.id) then Err(ValueError(DeleteUnsaved))
    else
      var a := appt.id.value;
      var links := set l | l in st.links && l.0 != a;
      var (appointments, existed) := DeleteRow(st.appointments, a);
      Ok((st.(links := links, appointments := appointments), existed))
  }

  // ---------------------------------------------------------------------------
  // Listing
  // ---------------------------------------------------------------------------

  /** The filters of `Appointment.get_all`: a truthy status must equal the
      stored status name, and a given day must be the day of the start time. */
  predicate Matches(row: Appointment, status: Option<string>, day: Option<int>) {
    && (TruthyText(status) ==> StatusName(row.status) == status.value)
    && (day.Some? ==> row.startTime / SecondsPerDay == day.value)
  }

  lemma {:induction false} HasEarliest(st: Store, pending: set<int>)
    requires pending != {} && pending <= st.appointments.Keys
    ensures exists a :: a in pending && forall b :: b in pending ==>
              st.appointments[a].startTime <= st.appointments[b].startTime
  {
    NonEmpty(pending);
    var x :| x in pending;
    var rest := pending - {x};
    if rest == {} {
      forall b | b in pending
        ensures st.appointments[x].startTime <= st.appointments[b].startTime
      {
        assert b !in rest;
      }
    } else {
      HasEarliest(st, rest);
      var m :| m in rest && forall b :: b in rest ==>
                 st.appointments[m].startTime <= st.appointments[b].startTime;
      var first := if st.appointments[x].startTime < st.appointments[m].startTime then x else m;
      forall b | b in pending
        ensures st.appointments[first].startTime <= st.appointments[b].startTime
      {
        if b != x {
          assert b in rest;
        }
      }
      assert first in pending;
    }
  }

  /** `ORDER BY start_time` over the chosen appointment ids: every chosen id
      exactly once, in non-decreasing start time. */
  method OrderByStart(st: Store, chosen: set<int>) returns (ids: seq<int>)
    requires chosen <= st.appointments.Keys
    ensures forall a :: a in ids <==> a in chosen
    ensures forall i :: 0 <= i < |ids| ==> ids[i] in st.appointments
    ensures forall i, j :: 0 <= i < j < |ids| ==> ids[i] != ids[j]
    ensures forall i, j :: 0 <= i < j < |ids| ==>
              st.appointments[ids[i]].startTime <= st.appointments[ids[j]].startTime
  {
    var pending := chosen;
    ids := [];
    while pending != {}
      invariant pending <= chosen
      invariant forall a :: a in chosen <==> a in ids || a in pending
      invariant forall a :: a in ids ==> a !in pending
      invariant forall i :: 0 <= i < |ids| ==> ids[i] in st.appointments
      invariant forall i, j :: 0 <= i < j < |ids| ==> ids[i] != ids[j]
      invariant forall i, j :: 0 <= i < j < |ids| ==>
                  st.appointments[ids[i]].startTime <= st.appointments[ids[j]].startTime
      invariant forall i, b :: 0 <= i < |ids| && b in pending ==>
                  st.appointments[ids[i]].startTime <= st.appointments[b].startTime
      decreases pending
    {
      HasEarliest(st, pending);
      var next :| next in pending && forall b :: b in pending ==>
                    st.appointments[next].startTime <= st.appointments[b].startTime;
      ids := ids + [next];
      pending := pending - {next};
    }
  }

  /** `Appointment.get_all`: the appointments passing the optional status and
      day filters, ordered by start time. */
  method GetAll(st: Store, status: Option<string>, day: Option<int>) returns (ids: seq<int>)
    ensures forall i :: 0 <= i < |ids| ==> ids[i] in st.appointments
    ensures forall a :: a in ids <==> a in st.appointments && Matches(st.appointments[a], status, day)
    ensures forall i, j :: 0 <= i < j < |ids| ==> ids[i] != ids[j]
    ensures forall i, j :: 0 <= i < j < |ids| ==>
              st.appointments[ids[i]].startTime <= st.appointments[ids[j]].startTime
  {
    var chosen := set a | a in st.appointments && Matches(st.appointments[a], status, day);
    ids := OrderByStart(st, chosen);
  }
}

=== FILE: appointments_resource.dfy ===
/** The appointment request handlers (app/resources/appointments.py):
    create and update, each one transaction that commits at its end or hands
    back the store it started from. */
module AppointmentsResource {
  import opened Base
  import opened Schema
  import opened Totals
  import opened Handlers
  import Services
  import Appointments

  const MedspaIdRequired := "medspa_id is required"
  const MedspaNotFound := "Medspa not found"
  const AppointmentNotFound := "Appointment not found"
  const StatusRejected := "Status must be 'completed' or 'canceled'"
  const NotIterable := "'NoneType' object is not iterable"
  /** Reading the `services` property calls its getter without `conn`. */
  const ServicesPropertyFault := "Appointment.services() missing 1 required positional argument: 'conn'"
  const NoServiceAttribute := "'NoneType' object has no attribute 'id'"

  function ServiceNotFound(id: int): string {
    "Service " + IntText(id) + " not found"
  }

  datatype Body =
    | ErrorBody(error: string)
    | AppointmentBody(appointment: Appointments.AppointmentObj, totalDuration: int, totalPrice: int)

  /** The JSON body of a create request. `startTime` is `None` when the key is
      left out or `null`; `status` is whatever the client sent. */
  datatype CreateRequest = CreateRequest(
    medspaId: Field<int>,
    startTime: Option<int>,
    status: Option<string>,
    serviceIds: Field<seq<int>>)

  /** The JSON body of an update request. */
  datatype UpdateRequest = UpdateRequest(
    status: Field<string>,
    startTime: Field<int>,
    serviceIds: Field<seq<int>>)

  /** `data.pop('service_ids', [])`, or `data['service_ids']`: an omitted key is
      the empty list; `None` stands for a `null` the loop cannot iterate. */
  function ServiceIdList(f: Field<seq<int>>): (ids: Option<seq<int>>)
    ensures f.Omitted? ==> ids == Some([])
    ensures f.Sent? ==> ids == f.sent
  {
    match f
    case Omitted => Some([])
    case Sent(v) => v
  }

  /** The links that booking `ids` on appointment `a` asks for. */
  function Pairs(a: int, ids: seq<int>): (links: set<Link>)
    ensures forall s :: (a, s) in links <==> s in ids
    ensures forall l :: l in links ==> l.0 == a
  {
    set s | s in ids :: (a, s)
  }

  /** A service id `Appointment.add_service` accepts for `appt`: the row
      exists, its id is truthy, the appointment is saved and stored, and both
      sides name the same medspa. */
  predicate Bookable(st: Store, appt: Appointments.AppointmentObj, s: int) {
    && s in st.services && s != 0
    && Truthy(appt.id) && appt.id.value in st.appointments
    && appt.medspaId == Some(st.services[s].medspaId)
    && st.appointments[appt.id.value].medspaId == st.services[s].medspaId
  }

  /** The index of the first listed id that cannot be booked, or `|ids|`. */
  function FirstUnbookable(st: Store, appt: Appointments.AppointmentObj, ids: seq<int>): (i: nat)
    ensures i <= |ids|
    ensures forall j :: 0 <= j < i ==> Bookable(st, appt, ids[j])
    ensures i < |ids| ==> !Bookable(st, appt, ids[i])
  {
    if ids == [] || !Bookable(st, appt, ids[0]) then 0
    else 1 + FirstUnbookable(st, appt, ids[1..])
  }

  /** A service an appointment of medspa `m` can be booked with: a stored
      service of that medspa whose id is truthy. */
  predicate Fits(st: Store, m: int, s: int) {
    s in st.services && s != 0 && st.services[s].medspaId == m
  }

  /** The index of the first listed id that does not fit medspa `m`, or
      `|ids|`: the store-level reading of where the attach loop stops. */
  function FirstBad(st: Store, m: int, ids: seq<int>): (i: nat)
    ensures i <= |ids|
    ensures forall j :: 0 <= j < i ==> Fits(st, m, ids[j])
    ensures i < |ids| ==> !Fits(st, m, ids[i])
  {
    if ids == [] || !Fits(st, m, ids[0]) then 0
    else 1 + FirstBad(st, m, ids[1..])
  }

  /** Where bookability on `appt` is fitting medspa `m`, the loop stops at
      the first id that does not fit. */
  lemma FirstUnbookableIsFirstBad(st: Store, appt: Appointments.AppointmentObj, origin: Store, m: int, ids: seq<int>)
    requires forall s :: Bookable(st, appt, s) <==> Fits(origin, m, s)
    ensures FirstUnbookable(st, appt, ids) == FirstBad(origin, m, ids)
  {
  }

  /** How the attach loop ends: every id attached, a listed id with no
      service row (answered 404), or an exception. */
  datatype Attach = Attached(store: Store) | Missing(serviceId: int) | Raised(failure: Failure)

  /** The loop `for service_id in service_ids`: load the service, 404 when it
      has no row, otherwise `appointment.add_service`; the first failure ends
      the loop. */
  function AttachAll(st: Store, appt: Appointments.AppointmentObj, ids: seq<int>): (r: Attach)
    ensures r.Attached? <==> FirstUnbookable(st, appt, ids) == |ids|
    ensures r.Attached? && ids == [] ==> r.store == st
    ensures r.Attached? && ids != [] ==> r.store == st.(links := st.links + Pairs(appt.id.value, ids))
    ensures r.Missing? <==>
              FirstUnbookable(st, appt, ids) < |ids| && ids[FirstUnbookable(st, appt, ids)] !in st.services
    ensures r.Missing? ==> r.serviceId == ids[FirstUnbookable(st, appt, ids)]
    ensures r.Raised? ==> r.failure.ValueError?
    decreases |ids|
  {
    if ids == [] then Attached(st)
    else
      match Services.GetById(st, ids[0])
      case None => Missing(ids[0])
      case Some(svc) =>
        match Appointments.AddService(st, appt, svc)
        case Err(f) => Raised(f)
        case Ok((next, _)) =>
          var rest := AttachAll(next, appt, ids[1..]);
          assert ids == [ids[0]] + ids[1..];
          assert forall s :: Bookable(next, appt, s) == Bookable(st, appt, s);
          rest
  }

  // ---------------------------------------------------------------------------
  // create
  // ---------------------------------------------------------------------------

  /** A create that reaches the attach loop: a stored medspa with a truthy
      id, a start time, and an iterable service list. */
  predicate CreateReady(st: Store, req: CreateRequest) {
    && req.medspaId.Sent? && req.medspaId.sent.Some?
    && req.medspaId.sent.value in st.medspas && req.medspaId.sent.value != 0
    && req.startTime.Some?
    && ServiceIdList(req.serviceIds).Some?
  }

  /** Everything a create needs to commit: a stored medspa with a truthy id, a
      start time, an iterable service list, and every listed id naming a
      stored service of that medspa with a truthy id. */
  predicate CreateAccepted(st: Store, req: CreateRequest) {
    && CreateReady(st, req)
    && var ids := ServiceIdList(req.serviceIds).value;
       forall i :: 0 <= i < |ids| ==>
         ids[i] in st.services && ids[i] != 0 && st.services[ids[i]].medspaId == req.medspaId.sent.value
  }

  /** `appointments.create`: 400 without a `medspa_id` key and 404 for an
      unknown medspa, before any write; then the appointment is saved with
      status forced to scheduled whatever the request says, the listed
      services are attached in order, and the first failure rolls everything
      back. On success the totals are read from the committed links. */
  function Create(st: Store, req: CreateRequest): (r: Reply<Body>)
    ensures req.medspaId.Omitted? ==> r.code == 400 && r.store == st
    ensures req.medspaId.Sent? && Lookup(st.medspas, req.medspaId.sent).None? ==> r.code == 404 && r.store == st
    ensures r.code == 201 || r.code == 400 || r.code == 404 || r.code == 500
    ensures r.code != 201 ==> r.store == st && r.body.ErrorBody?
    ensures r.code == 201 <==> CreateAccepted(st, req)
    ensures req.medspaId.Sent? && Lookup(st.medspas, req.medspaId.sent).Some? ==>
              && (!Truthy(req.medspaId.sent) || req.startTime.None? ==> r.code == 400)
              && (Truthy(req.medspaId.sent) && req.startTime.Some? && ServiceIdList(req.serviceIds).None? ==>
                    r.code == 500)
    ensures CreateReady(st, req) ==>
              var ids := ServiceIdList(req.serviceIds).value;
              var i := FirstBad(st, req.medspaId.sent.value, ids);
              && (i < |ids| && ids[i] !in st.services ==>
                    r.code == 404 && r.body == ErrorBody(ServiceNotFound(ids[i])))
              && (i < |ids| && ids[i] in st.services ==> r.code == 400)
    ensures r.code == 201 ==>
              && r.body.AppointmentBody?
              && var appt := r.body.appointment;
                 var ids := ServiceIdList(req.serviceIds).value;
              && appt.id.Some? && appt.id.value > 0 && appt.id.value !in st.appointments
              && appt == Appointments.AppointmentObj(appt.id, req.medspaId.sent, req.startTime, Scheduled)
              && r.store == st.(appointments := st.appointments[appt.id.value :=
                                  Appointment(req.medspaId.sent.value, req.startTime.value, Scheduled)],
                                links := st.links + Pairs(appt.id.value, ids))
              && r.body.totalDuration == Appointments.TotalDuration(r.store, appt)
              && r.body.totalPrice == Appointments.TotalPrice(r.store, appt)
  {
    match req.medspaId
    case Omitted => Reply(400, ErrorBody(MedspaIdRequired), st)
    case Sent(m) =>
      if Lookup(st.medspas, m).None? then Reply(404, ErrorBody(MedspaNotFound), st)
      else
        var draft := Appointments.New(m, req.startTime);
        match Appointments.Save(st, draft)
        case Err(f) => Reply(FailureCode(f), ErrorBody(f.message), st)
        case Ok((saved, appt)) =>
          match ServiceIdList(req.serviceIds)
          case None => Reply(500, ErrorBody(NotIterable), st)
          case Some(ids) =>
            assert forall s :: Bookable(saved, appt, s) <==> Fits(st, m.value, s);
            FirstUnbookableIsFirstBad(saved, appt, st, m.value, ids);
            match AttachAll(saved, appt, ids)
            case Missing(s) => Reply(404, ErrorBody(ServiceNotFound(s)), st)
            case Raised(f) => Reply(FailureCode(f), ErrorBody(f.message), st)
            case Attached(booked) =>
              Reply(201, AppointmentBody(appt, Appointments.TotalDuration(booked, appt),
                                         Appointments.TotalPrice(booked, appt)), booked)
  }

  /** Booking the listed services on an appointment that has no links yet
      gives totals that add up each listed service once, at its first
      occurrence: repeating an id does not count it twice. */
  lemma FreshBookingCountsEachServiceOnce(st: Store, appt: Appointments.AppointmentObj, ids: seq<int>, k: Measure)
    requires Truthy(appt.id)
    requires forall l :: l in st.links ==> l.0 != appt.id.value
    requires forall i :: 0 <= i < |ids| ==> ids[i] in st.services
    ensures var once := FirstOccurrences(ids);
            && (forall i :: 0 <= i < |once| ==> once[i] in st.services)
            && Appointments.TotalOf(st.(links := st.links + Pairs(appt.id.value, ids)), appt, k)
                 == SumList(once, st.services, k)
  {
    var a := appt.id.value;
    var booked := st.(links := st.links + Pairs(a, ids));
    var once := FirstOccurrences(ids);
    assert forall i :: 0 <= i < |once| ==> once[i] in Elements(ids);
    assert LinkedServices(booked, a) == Elements(ids) by {
      forall s | s in LinkedServices(booked, a)
        ensures s in Elements(ids)
      {
        assert (a, s) !in st.links;
      }
    }
    SumListIsSumOver(once, st.services, k);
  }

  /** With the link table intact, the totals a successful create reports
      count each listed service once. */
  lemma CreateTotalsCountEachServiceOnce(st: Store, req: CreateRequest)
    requires LinksIntact(st)
    requires CreateAccepted(st, req)
    ensures var ids := FirstOccurrences(ServiceIdList(req.serviceIds).value);
            && (forall i :: 0 <= i < |ids| ==> ids[i] in st.services)
            && Create(st, req).body.totalDuration == SumList(ids, st.services, Duration)
            && Create(st, req).body.totalPrice == SumList(ids, st.services, Price)
  {
    var r := Create(st, req);
    var listed := ServiceIdList(req.serviceIds).value;
    var appt := r.body.appointment;
    var saved := st.(appointments := r.store.appointments);
    assert forall l :: l in saved.links ==> l.0 != appt.id.value;
    FreshBookingCountsEachServiceOnce(saved, appt, listed, Duration);
    FreshBookingCountsEachServiceOnce(saved, appt, listed, Price);
  }

  // ---------------------------------------------------------------------------
  // update
  // ---------------------------------------------------------------------------

  /** The status rule of update: a `status` key must be "completed" or
      "canceled", whatever the current status is. */
  predicate StatusAccepted(f: Field<string>) {
    f.Omitted? || f.sent == Some("completed") || f.sent == Some("canceled")
  }

  /** The loaded appointment with the request's status and start time applied. */
  function Amend(appt: Appointments.AppointmentObj, req: UpdateRequest): (amended: Appointments.AppointmentObj)
    requires StatusAccepted(req.status)
    ensures amended.id == appt.id && amended.medspaId == appt.medspaId
    ensures req.status.Omitted? ==> amended.status == appt.status
    ensures req.status.Sent? ==> amended.status == (if req.status.sent == Some("completed") then Completed else Canceled)
    ensures amended.startTime == Apply(req.startTime, appt.startTime)
  {
    var status := if req.status.Omitted? then appt.status
                  else Appointments.ParseStatus(req.status.sent.value).value;
    appt.(status := status, startTime := Apply(req.startTime, appt.startTime))
  }

  /** The common tail of update: save the amended appointment, then report it
      with totals read from the links as they now are. A failure hands back
      `origin`, the store the request started from. */
  function Finish(origin: Store, st: Store, appt: Appointments.AppointmentObj): (r: Reply<Body>)
    ensures r.code == 200 || r.code == 400 || r.code == 500
    ensures r.code != 200 ==> r.store == origin && r.body.ErrorBody?
    ensures r.code == 200 <==> Appointments.Save(st, appt).Ok?
    ensures r.code == 200 ==>
              && r.store == Appointments.Save(st, appt).value.0
              && r.body == AppointmentBody(Appointments.Save(st, appt).value.1,
                                           Appointments.TotalDuration(r.store, Appointments.Save(st, appt).value.1),
                                           Appointments.TotalPrice(r.store, Appointments.Save(st, appt).value.1))
  {
    match Appointments.Save(st, appt)
    case Err(f) => Reply(FailureCode(f), ErrorBody(f.message), origin)
    case Ok((saved, amended)) =>
      Reply(200, AppointmentBody(amended, Appointments.TotalDuration(saved, amended),
                                 Appointments.TotalPrice(saved, amended)), saved)
  }

  /** `appointments.update` as the source is written: 404 for an unknown id
      and 400 for a status other than completed or canceled, before any
      write. Any request carrying `service_ids` then reads
      `appointment.services`, a property whose getter also wants `conn`; the
      `TypeError` ends in the 500 branch with everything rolled back. */
  function UpdateAsWritten(st: Store, id: int, req: UpdateRequest): (r: Reply<Body>)
    ensures id !in st.appointments ==> r.code == 404 && r.store == st
    ensures id in st.appointments && !StatusAccepted(req.status) ==> r.code == 400 && r.store == st
    ensures r.code != 200 ==> r.store == st
    ensures req.serviceIds.Sent? ==> r.code != 200 && r.store == st
    ensures id in st.appointments && StatusAccepted(req.status) && req.serviceIds.Sent? ==> r.code == 500
    ensures req.serviceIds.Omitted? ==> r.store.links == st.links
    ensures req.serviceIds.Omitted? ==> r == Update(st, id, req)
  {
    if id !in st.appointments then Reply(404, ErrorBody(AppointmentNotFound), st)
    else if !StatusAccepted(req.status) then Reply(400, ErrorBody(StatusRejected), st)
    else
      var appt := Amend(Appointments.FromRow(id, st.appointments[id]), req);
      if req.serviceIds.Sent? then Reply(500, ErrorBody(ServicesPropertyFault), st)
      else Finish(st, st, appt)
  }

  /** A link of appointment `a` whose service has no row. */
  predicate Dangling(st: Store, a: int) {
    exists l :: l in st.links && l.0 == a && l.1 !in st.services
  }

  /** The replace step update intends for a `service_ids` key: remove every
      current service of the appointment through `remove_service`, then
      attach the listed ids in order. A link whose service has no row is
      loaded as `None` and raises on `service.id`; a service whose id is 0
      is falsy, so `remove_service` leaves its link. */
  function ReplaceServices(st: Store, appt: Appointments.AppointmentObj, listed: Option<seq<int>>): (r: Attach)
    requires appt.id.Some?
    ensures Truthy(appt.id) && Dangling(st, appt.id.value) ==> r.Raised?
    ensures listed.None? ==> r.Raised?
    ensures r.Raised? && !r.failure.ValueError? ==>
              r.failure.RuntimeFault? && (listed.None? || (Truthy(appt.id) && Dangling(st, appt.id.value)))
    ensures && listed.Some? && Truthy(appt.id) && !Dangling(st, appt.id.value)
            && appt.id.value in st.appointments && appt.medspaId == Some(st.appointments[appt.id.value].medspaId)
            ==> var ids := listed.value;
                var i := FirstBad(st, st.appointments[appt.id.value].medspaId, ids);
                && (r.Attached? <==> i == |ids|)
                && (r.Missing? <==> i < |ids| && ids[i] !in st.services)
                && (r.Missing? ==> r.serviceId == ids[i])
    ensures r.Attached? ==> listed.Some? && FirstUnbookable(st, appt, listed.value) == |listed.value|
    ensures r.Attached? ==>
              && r.store == st.(links := r.store.links)
              && (forall l: Link :: l.0 != appt.id.value ==> (l in r.store.links <==> l in st.links))
              && (forall s :: s != 0 && Truthy(appt.id) ==> ((appt.id.value, s) in r.store.links <==> s in listed.value))
  {
    var a := appt.id.value;
    if Truthy(appt.id) && Dangling(st, a) then
      Raised(RuntimeFault(NoServiceAttribute))
    else
      var cleared := if Truthy(appt.id) then st.(links := set l | l in st.links && !(l.0 == a && l.1 != 0)) else st;
      match listed
      case None => Raised(RuntimeFault(NotIterable))
      case Some(ids) =>
        assert forall s :: Bookable(cleared, appt, s) == Bookable(st, appt, s);
        if Truthy(appt.id) && a in st.appointments && appt.medspaId == Some(st.appointments[a].medspaId) then
          FirstUnbookableIsFirstBad(cleared, appt, st, st.appointments[a].medspaId, ids);
          AttachAll(cleared, appt, ids)
        else AttachAll(cleared, appt, ids)
  }

  /** An update that passes the status rule and leaves a savable
      appointment: a stored row with truthy id and medspa, and no `null` start
      time. */
  predicate UpdateReady(st: Store, id: int, req: UpdateRequest) {
    && id in st.appointments && id != 0 && st.appointments[id].medspaId != 0
    && StatusAccepted(req.status) && req.startTime != Sent(None)
  }

  /** `appointments.update` with the replace semantics its loop evidently
      intends: the status and start-time rules of `UpdateAsWritten`, then a
      `service_ids` key replaces the appointment's services; any unknown or
      cross-medspa id rolls the whole request back. */
  function Update(st: Store, id: int, req: UpdateRequest): (r: Reply<Body>)
    ensures id !in st.appointments ==> r.code == 404 && r.store == st
    ensures id in st.appointments && !StatusAccepted(req.status) ==> r.code == 400 && r.store == st
    ensures r.code != 200 ==> r.store == st && r.body.ErrorBody?
    ensures req.serviceIds.Omitted? ==> r.store.links == st.links
    ensures r.code == 200 && id != 0 ==>
              var prev := st.appointments[id];
              && r.body.AppointmentBody?
              && req.startTime != Sent(None)
              && r.store.appointments == st.appointments[id := Appointment(
                   prev.medspaId,
                   if req.startTime.Sent? then req.startTime.sent.value else prev.startTime,
                   if req.status.Omitted? then prev.status
                   else if req.status.sent == Some("completed") then Completed else Canceled)]
              && r.store == st.(appointments := r.store.appointments, links := r.store.links)
              && r.body.appointment == Appointments.FromRow(id, r.store.appointments[id])
              && r.body.totalDuration == Appointments.TotalDuration(r.store, r.body.appointment)
              && r.body.totalPrice == Appointments.TotalPrice(r.store, r.body.appointment)
    ensures r.code == 200 && id != 0 && req.serviceIds.Sent? ==>
              && req.serviceIds.sent.Some?
              && (forall l: Link :: l.0 != id ==> (l in r.store.links <==> l in st.links))
              && (forall s :: s != 0 ==> ((id, s) in r.store.links <==> s in req.serviceIds.sent.value))
              && (forall s :: s in req.serviceIds.sent.value ==>
                    s in st.services && st.services[s].medspaId == st.appointments[id].medspaId)
    ensures UpdateReady(st, id, req) && req.serviceIds.Omitted? ==> r.code == 200
    ensures id in st.appointments && StatusAccepted(req.status) && req.serviceIds == Sent(None) ==> r.code == 500
    ensures id in st.appointments && id != 0 && StatusAccepted(req.status) && req.serviceIds.Sent? && Dangling(st, id)
            ==> r.code == 500
    ensures UpdateReady(st, id, req) && !Dangling(st, id) && req.serviceIds.Sent? && req.serviceIds.sent.Some? ==>
              var ids := req.serviceIds.sent.value;
              var i := FirstBad(st, st.appointments[id].medspaId, ids);
              && (i == |ids| ==> r.code == 200)
              && (i < |ids| && ids[i] !in st.services ==>
                    r.code == 404 && r.body == ErrorBody(ServiceNotFound(ids[i])))
              && (i < |ids| && ids[i] in st.services ==> r.code == 400)
  {
    if id !in st.appointments then Reply(404, ErrorBody(AppointmentNotFound), st)
    else if !StatusAccepted(req.status) then Reply(400, ErrorBody(StatusRejected), st)
    else
      var appt := Amend(Appointments.FromRow(id, st.appointments[id]), req);
      if req.serviceIds.Omitted? then Finish(st, st, appt)
      else
        match ReplaceServices(st, appt, req.serviceIds.sent)
        case Missing(s) => Reply(404, ErrorBody(ServiceNotFound(s)), st)
        case Raised(f) => Reply(FailureCode(f), ErrorBody(f.message), st)
        case Attached(replaced) => Finish(st, replaced, appt)
  }

  /** A medspa with two catalogued services and one appointment booked for
      the first. */
  function ReplaceScenarioStore(): Store {
    Store(
      map[1 := Medspa(Some("Glow"), Some("1 Main St"), Some("555-0100"), Some("desk@glow.example"))],
      map[1 := Category(Some("Injectables"))], map[1 := ServiceType(Some(1), Some("Neurotoxin"))],
      map[1 := Product(Some(1), None, Some("Botox Cosmetic"))], map[],
      map[10 := Service(1, 1, 1, 1, "Botox", None, 30000, 30),
          20 := Service(1, 1, 1, 1, "Filler", None, 50000, 45)],
      map[1 := Appointment(1, 1000, Scheduled)],
      {(1, 10)})
  }

  /** Completing appointment 1 and switching it to service 20: the update as
      written answers 500 and changes nothing, while the replace semantics
      leave exactly service 20 on the completed appointment and report its
      price and duration. */
  lemma ReplaceScenario()
    ensures var st := ReplaceScenarioStore();
            var req := UpdateRequest(Sent(Some("completed")), Omitted, Sent(Some([20])));
            && UpdateAsWritten(st, 1, req).code == 500
            && UpdateAsWritten(st, 1, req).store == st
            && Update(st, 1, req).code == 200
            && Update(st, 1, req).store.links == {(1, 20)}
            && Update(st, 1, req).store.appointments[1].status == Completed
            && Update(st, 1, req).body.totalPrice == 50000
            && Update(st, 1, req).body.totalDuration == 45
  {
  }
}

=== FILE: base.dfy ===
/** Shared vocabulary of the booking model: optional values, request fields,
    Python truthiness, the two exception classes the request handlers tell
    apart, and the choice of a fresh row id. */
module Base {

  /** A nullable column or attribute: `None` is Python's `None` (SQL NULL). */
  datatype Option<+T> = None | Some(value: T)

  /** One key of a JSON request body: left out, or sent (possibly as `null`). */
  datatype Field<+T> = Omitted | Sent(sent: Option<T>)

  /** The value an object attribute gets from a request field, where an
      omitted key leaves the attribute at `current`. */
  function Apply<T>(f: Field<T>, current: Option<T>): (r: Option<T>)
    ensures f.Omitted? ==> r == current
    ensures f.Sent? ==> r == f.sent
  {
    match f
    case Omitted => current
    case Sent(v) => v
  }

  /** The value a key gets when the handler reads it with a default
      (`data.get(key)`): omitted and `null` both give `None`. */
  function Given<T>(f: Field<T>): (r: Option<T>)
    ensures r.Some? <==> f.Sent? && f.sent.Some?
  {
    match f
    case Omitted => None
    case Sent(v) => v
  }

  /** The exceptions of the model layer, as the request handlers classify them. */
  datatype Failure =
    | ValueError(message: string)    // `except ValueError`: answered with 400
    | RuntimeFault(message: string)  // any other exception: answered with 500

  datatype Result<+T> = Ok(value: T) | Err(failure: Failure) {
    predicate IsFailure() {
      Err?
    }

    function PropagateFailure<U>(): Result<U>
      requires Err?
    {
      Err(failure)
    }

    function Extract(): T
      requires Ok?
    {
      value
    }
  }

  /** Python truthiness of an optional number: `None` and `0` are false. */
  predicate Truthy(x: Option<int>) {
    x.Some? && x.value != 0
  }

  /** Python truthiness of an optional string: `None` and `""` are false. */
  predicate TruthyText(x: Option<string>) {
    x.Some? && x.value != ""
  }

  /** SQL `COALESCE(given, stored)`, and the `x if x is not None else y` merge. */
  function Coalesce<T>(given: Option<T>, stored: T): (r: T)
    ensures given.Some? ==> r == given.value
    ensures given.None? ==> r == stored
  {
    if given.Some? then given.value else stored
  }

  /** A set that is not empty has an element. */
  lemma NonEmpty(s: set<int>)
    requires s != {}
    ensures exists x :: x in s
  {
    if forall x :: x !in s {
      assert false;
    }
  }

  lemma {:induction false} HasMaximum(s: set<int>)
    requires s != {}
    ensures exists m :: m in s && forall y :: y in s ==> y <= m
  {
    NonEmpty(s);
    var x :| x in s;
    var rest := s - {x};
    if rest == {} {
      forall y | y in s
        ensures y <= x
      {
        assert y !in rest;
      }
    } else {
      HasMaximum(rest);
      var m :| m in rest && forall y :: y in rest ==> y <= m;
      var top := if m < x then x else m;
      forall y | y in s
        ensures y <= top
      {
        if y != x {
          assert y in rest;
        }
      }
      assert top in s;
    }
  }

  /** The largest element of a non-empty finite set of integers. */
  function Max(s: set<int>): (m: int)
    requires s != {}
    ensures m in s
    ensures forall y :: y in s ==> y <= m
  {
    HasMaximum(s);
    var m :| m in s && forall y :: y in s ==> y <= m;
    m
  }

  /** The id the database hands out for a new row: positive and not in use.
      A serial column is abstracted to one past the largest id in use. */
  function FreshId(used: set<int>): (id: int)
    ensures id > 0
    ensures id !in used
  {
    if used == {} then 1
    else
      var m := Max(used);
      if m < 1 then 1 else m + 1
  }

  /** Python's `str` of a natural number. */
  function DecimalText(n: nat): (s: string)
    ensures |s| > 0
    ensures forall i :: 0 <= i < |s| ==> '0' <= s[i] <= '9'
  {
    var digit := [(n % 10) as char + '0'];
    if n < 10 then digit else DecimalText(n / 10) + digit
  }

  /** Python's `str` of an integer. */
  function IntText(i: int): string {
    if i < 0 then "-" + DecimalText(-i) else DecimalText(i)
  }
}

=== FILE: handlers.dfy ===
/** What a request handler of app/resources answers: a status code, a body,
    and the store as its transaction leaves it. Committing hands back the
    changed store; `conn.rollback()`, and closing the connection without a
    commit, hand back the store the request started from. */
module Handlers {
  import opened Base
  import opened Schema

  datatype Reply<+B> = Reply(code: int, body: B, store: Store)

  /** The status code an exception from the model layer is answered with:
      `except ValueError` gives 400, `except Exception` gives 500. */
  function FailureCode(f: Failure): (code: int)
    ensures code == 400 <==> f.ValueError?
    ensures code == 500 <==> f.RuntimeFault?
  {
    match f
    case ValueError(_) => 400
    case RuntimeFault(_) => 500
  }
}

=== FILE: integrity.dfy ===
/** Store-wide invariants across the operations: which ones keep the link
    table intact and single-medspa, and which leave the catalog hierarchy
    unguarded. */
module Integrity {
  import opened Base
  import opened Schema
  import Services
  import ServiceTypes
  import Appointments
  import AppointmentsResource

  /** Every stored service has truthy catalog ids and sits in the hierarchy:
      its type belongs to its category and its product to its type. */
  ghost predicate CatalogConsistent(st: Store) {
    forall s :: s in st.services ==>
      && st.services[s].categoryId != 0 && st.services[s].typeId != 0 && st.services[s].productId != 0
      && Services.InHierarchy(st, Some(st.services[s].categoryId), Some(st.services[s].typeId),
                              Some(st.services[s].productId))
  }

  // ---------------------------------------------------------------------------
  // Referential integrity of the link table
  // ---------------------------------------------------------------------------

  /** The object's medspa is that of its stored row, as for every object
      loaded by `Service.get_by_id`. */
  predicate InSync(st: Store, svc: Services.ServiceObj) {
    svc.id.Some? && svc.id.value in st.services ==> svc.medspaId == Some(st.services[svc.id.value].medspaId)
  }

  /** Attaching writes a link only between a stored appointment and a stored
      service of the same medspa, so both link invariants survive it. The
      medspa compared is the object's, hence the service must be in sync with
      its row. */
  lemma AttachKeepsLinkInvariants(st: Store, appt: Appointments.AppointmentObj, svc: Services.ServiceObj)
    requires LinksIntact(st) && LinksSameMedspa(st)
    requires InSync(st, svc)
    requires Appointments.AddService(st, appt, svc).Ok?
    ensures LinksIntact(Appointments.AddService(st, appt, svc).value.0)
    ensures LinksSameMedspa(Appointments.AddService(st, appt, svc).value.0)
  {
  }

  /** Deleting a service or an appointment cascades to its links, so no link
      is left dangling. */
  lemma DeletesKeepLinksIntact(st: Store, svc: Services.ServiceObj, appt: Appointments.AppointmentObj)
    requires LinksIntact(st)
    ensures Services.Delete(st, svc).Ok? ==> LinksIntact(Services.Delete(st, svc).value.0)
    ensures Appointments.Delete(st, appt).Ok? ==> LinksIntact(Appointments.Delete(st, appt).value.0)
  {
  }

  /** An appointment create leaves every link between a stored appointment
      and a stored service of the same medspa. */
  lemma CreateKeepsLinkInvariants(st: Store, req: AppointmentsResource.CreateRequest)
    requires LinksIntact(st) && LinksSameMedspa(st)
    ensures LinksIntact(AppointmentsResource.Create(st, req).store)
    ensures LinksSameMedspa(AppointmentsResource.Create(st, req).store)
  {
  }

  /** An appointment update leaves every link between a stored appointment
      and a stored service of the same medspa. */
  lemma UpdateKeepsLinkInvariants(st: Store, id: int, req: AppointmentsResource.UpdateRequest)
    requires LinksIntact(st) && LinksSameMedspa(st)
    ensures LinksIntact(AppointmentsResource.Update(st, id, req).store)
    ensures LinksSameMedspa(AppointmentsResource.Update(st, id, req).store)
  {
  }

  /** Medspas 1 and 2, and service 10 of medspa 1 booked on appointment 1,
      with its catalog. */
  function ServiceMoveStore(): Store {
    Store(map[1 := Medspa(Some("Glow"), Some("1 Main St"), Some("555-0100"), Some("desk@glow.example")),
              2 := Medspa(Some("Radiance"), Some("9 Elm St"), Some("555-0199"), Some("desk@radiance.example"))],
          map[1 := Category(Some("Injectables"))], map[1 := ServiceType(Some(1), Some("Neurotoxin"))],
          map[1 := Product(Some(1), None, Some("Botox Cosmetic"))], map[],
          map[10 := Service(1, 1, 1, 1, "Botox", None, 30000, 30)],
          map[1 := Appointment(1, 1000, Scheduled)], {(1, 10)})
  }

  /** Moving a service to another medspa is not checked against its
      bookings: the update keeps the links of appointments at the old
      medspa, so the single-medspa rule attach enforces no longer holds. */
  lemma ServiceMoveBreaksSameMedspa()
    ensures var st := ServiceMoveStore();
            var moved := Services.ServiceObj(Some(10), Some(2), None, None, None, None, None, None, None);
            && LinksIntact(st) && LinksSameMedspa(st)
            && Services.Save(st, moved).Ok?
            && LinksIntact(Services.Save(st, moved).value.0)
            && !LinksSameMedspa(Services.Save(st, moved).value.0)
  {
  }

  // ---------------------------------------------------------------------------
  // The catalog hierarchy
  // ---------------------------------------------------------------------------

  /** Saving a service keeps the catalog consistent as long as it does not
      set a catalog id to 0: a create validates its triple, and an update
      whose merged triple is then fully populated validates it too. */
  lemma ServiceSaveKeepsCatalog(st: Store, obj: Services.ServiceObj)
    requires CatalogConsistent(st)
    requires obj.categoryId != Some(0) && obj.typeId != Some(0) && obj.productId != Some(0)
    requires Services.Save(st, obj).Ok?
    ensures CatalogConsistent(Services.Save(st, obj).value.0)
  {
  }

  /** Nothing keeps a type under its category: updating a type re-files it,
      and a service that used it is left outside the hierarchy. */
  lemma TypeUpdateBreaksCatalog()
    ensures var st := Store(map[1 := Medspa(Some("Glow"), Some("1 Main St"), Some("555-0100"), Some("desk@glow.example"))],
                            map[1 := Category(Some("Injectables")), 2 := Category(Some("Lasers"))],
                            map[1 := ServiceType(Some(1), Some("Neurotoxin"))],
                            map[1 := Product(Some(1), None, Some("Botox Cosmetic"))], map[],
                            map[10 := Service(1, 1, 1, 1, "Botox", None, 30000, 30)],
                            map[], {});
            && CatalogConsistent(st)
            && ServiceTypes.Save(st, Some(1), ServiceType(Some(2), Some("Neurotoxin"))).Ok?
            && !CatalogConsistent(ServiceTypes.Save(st, Some(1), ServiceType(Some(2), Some("Neurotoxin"))).value.0)
  {
    var st := Store(map[1 := Medspa(Some("Glow"), Some("1 Main St"), Some("555-0100"), Some("desk@glow.example"))],
                    map[1 := Category(Some("Injectables")), 2 := Category(Some("Lasers"))],
                    map[1 := ServiceType(Some(1), Some("Neurotoxin"))],
                    map[1 := Product(Some(1), None, Some("Botox Cosmetic"))], map[],
                    map[10 := Service(1, 1, 1, 1, "Botox", None, 30000, 30)],
                    map[], {});
    assert Services.InHierarchy(st, Some(1), Some(1), Some(1));
    assert forall s :: s in st.services ==> s == 10;
    var st' := ServiceTypes.Save(st, Some(1), ServiceType(Some(2), Some("Neurotoxin"))).value.0;
    assert st'.services[10] == Service(1, 1, 1, 1, "Botox", None, 30000, 30);
    assert st'.types[1].categoryId == Some(2);
    assert !Services.InHierarchy(st', Some(1), Some(1), Some(1));
  }
}

=== FILE: medspa.dfy ===
/** `Medspa` (app/models/medspa.py): the business that owns services and
    appointments. */
module Medspas {
  import opened Base
  import opened Schema
  import Services
  import Appointments

  const AllRequired := "All fields are required"
  const AddToUnsaved := "Cannot add services to unsaved Medspa"
  const DeleteUnsaved := "Cannot delete unsaved Medspa"

  /** `Medspa.get_by_id`. */
  function GetById(st: Store, id: Option<int>): (r: Option<Medspa>)
    ensures r.None? <==> id.None? || id.value !in st.medspas
    ensures r.Some? ==> r.value == st.medspas[id.value]
  {
    Lookup(st.medspas, id)
  }

  /** Create's `all([...])` check over the four contact fields. */
  predicate HasContactFields(m: Medspa) {
    TruthyText(m.name) && TruthyText(m.address) && TruthyText(m.phoneNumber) && TruthyText(m.emailAddress)
  }

  /** `Medspa.save` for an object with attributes `id` and `m`: a falsy id
      inserts when all four contact fields are truthy; a truthy id overwrites
      the row with no check. */
  function Save(st: Store, id: Option<int>, m: Medspa): (r: Result<(Store, int)>)
    ensures !Truthy(id) ==> (r.Ok? <==> HasContactFields(m))
    ensures !Truthy(id) && !HasContactFields(m) ==> r == Err(ValueError(AllRequired))
    ensures Truthy(id) ==> (r.Ok? <==> id.value in st.medspas)
    ensures Truthy(id) && r.Err? ==> r.failure.RuntimeFault?
    ensures r.Ok? ==> var (st', k) := r.value;
              && GetById(st', Some(k)) == Some(m)
              && st' == st.(medspas := st'.medspas)
              && st'.medspas.Keys == st.medspas.Keys + {k}
              && (forall j :: j in st.medspas && j != k ==> st'.medspas[j] == st.medspas[j])
              && (Truthy(id) ==> k == id.value)
              && (!Truthy(id) ==> k > 0 && k !in st.medspas)
  {
    if Truthy(id) then
      var medspas :- UpdateRow(st.medspas, id.value, m);
      Ok((st.(medspas := medspas), id.value))
    else if !HasContactFields(m) then
      Err(ValueError(AllRequired))
    else
      var (medspas, k) := InsertRow(st.medspas, m);
      Ok((st.(medspas := medspas), k))
  }

  /** `Medspa.add_service`: refused for an unsaved medspa; otherwise the
      service is re-homed to this medspa and saved under `Service.save`'s
      create or update rules. */
  function AddService(st: Store, id: Option<int>, svc: Services.ServiceObj): (r: Result<(Store, Services.ServiceObj)>)
    ensures !Truthy(id) ==> r == Err(ValueError(AddToUnsaved))
    ensures Truthy(id) ==> r == Services.Save(st, svc.(medspaId := id))
    ensures r.Ok? ==> r.value.1.medspaId == id
  {
    if !Truthy(id) then Err(ValueError(AddToUnsaved))
    else Services.Save(st, svc.(medspaId := id))
  }

  /** `Medspa.services`: the services of this medspa, none for an unsaved one. */
  function ServicesOf(st: Store, id: Option<int>): (ids: set<int>)
    ensures !Truthy(id) ==> ids == {}
    ensures Truthy(id) ==> forall s :: s in ids <==> s in st.services && Some(st.services[s].medspaId) == id
  {
    if !Truthy(id) then {}
    else set s | s in st.services && Some(st.services[s].medspaId) == id
  }

  /** `Medspa.appointments`: the appointments of this medspa ordered by start
      time, none for an unsaved one. */
  method AppointmentsOf(st: Store, id: Option<int>) returns (ids: seq<int>)
    ensures !Truthy(id) ==> ids == []
    ensures forall i :: 0 <= i < |ids| ==> ids[i] in st.appointments
    ensures Truthy(id) ==>
              forall a :: a in ids <==> a in st.appointments && Some(st.appointments[a].medspaId) == id
    ensures forall i, j :: 0 <= i < j < |ids| ==> ids[i] != ids[j]
    ensures forall i, j :: 0 <= i < j < |ids| ==>
              st.appointments[ids[i]].startTime <= st.appointments[ids[j]].startTime
  {
    if !Truthy(id) {
      return [];
    }
    var chosen := set a | a in st.appointments && Some(st.appointments[a].medspaId) == id;
    ids := Appointments.OrderByStart(st, chosen);
  }

  /** `Medspa.delete`: refused for an unsaved medspa; otherwise removes the
      row and reports whether it existed. */
  function Delete(st: Store, id: Option<int>): (r: Result<(Store, bool)>)
    ensures !Truthy(id) ==> r == Err(ValueError(DeleteUnsaved))
    ensures Truthy(id) ==> r.Ok?
    ensures r.Ok? ==> var (st', existed) := r.value;
              && GetById(st', id).None?
              && (existed <==> GetById(st, id).Some?)
              && st' == st.(medspas := st'.medspas)
              && st'.medspas.Keys == st.medspas.Keys - {id.value}
              && (forall j :: j in st.medspas && Some(j) != id ==> j in st'.medspas && st'.medspas[j] == st.medspas[j])
  {
    if !Truthy(id) then Err(ValueError(DeleteUnsaved))
    else
      var (medspas, existed) := DeleteRow(st.medspas, id.value);
      Ok((st.(medspas := medspas), existed))
  }
}

=== FILE: schema.dfy ===
/** The rows of every table the booking core touches, and the store that holds
    them. Each SQL statement of the core becomes an operation on one of these
    maps or on the link set. */
module Schema {
  import opened Base

  datatype Medspa = Medspa(
    name: Option<string>,
    address: Option<string>,
    phoneNumber: Option<string>,
    emailAddress: Option<string>)

  datatype Category = Category(name: Option<string>)

  datatype ServiceType = ServiceType(categoryId: Option<int>, name: Option<string>)

  datatype Product = Product(typeId: Option<int>, supplierId: Option<int>, name: Option<string>)

  datatype Supplier = Supplier(name: Option<string>)

  /** A stored service. Creation demands every column but `description`, and
      updates only ever COALESCE into them, so they are never NULL. `price` is
      an amount in cents. */
  datatype Service = Service(
    medspaId: int,
    categoryId: int,
    typeId: int,
    productId: int,
    name: string,
    description: Option<string>,
    price: int,
    duration: int)

  /** The three statuses the application writes. */
  datatype Status = Scheduled | Completed | Canceled

  /** A stored appointment; `startTime` is a timestamp in seconds. */
  datatype Appointment = Appointment(medspaId: int, startTime: int, status: Status)

  /** A row of `appointment_services`: (appointment id, service id). */
  type Link = (int, int)

  datatype Store = Store(
    medspas: map<int, Medspa>,
    categories: map<int, Category>,
    types: map<int, ServiceType>,
    products: map<int, Product>,
    suppliers: map<int, Supplier>,
    services: map<int, Service>,
    appointments: map<int, Appointment>,
    links: set<Link>)

  /** Referential integrity of the link table: every link names a stored
      appointment and a stored service. */
  ghost predicate LinksIntact(st: Store) {
    forall l :: l in st.links ==> l.0 in st.appointments && l.1 in st.services
  }

  /** The rule attach enforces: a linked service belongs to the medspa of its
      appointment. */
  ghost predicate LinksSameMedspa(st: Store) {
    forall l :: l in st.links && l.0 in st.appointments && l.1 in st.services ==>
      st.appointments[l.0].medspaId == st.services[l.1].medspaId
  }

  /** The ids of the services linked to appointment `a` that still have a row:
      what `JOIN appointment_services ... WHERE appointment_id = a` yields. */
  function LinkedServices(st: Store, a: int): (ids: set<int>)
    ensures forall s :: s in ids <==> (a, s) in st.links && s in st.services
  {
    set l | l in st.links && l.0 == a && l.1 in st.services :: l.1
  }

  /** The ids of the appointments linked to service `s`. */
  function LinkedAppointments(st: Store, s: int): (ids: set<int>)
    ensures forall a :: a in ids <==> (a, s) in st.links
  {
    set l | l in st.links && l.1 == s :: l.0
  }

  /** `INSERT ... RETURNING id`: the row lands under a fresh positive id. */
  function InsertRow<T>(table: map<int, T>, row: T): (r: (map<int, T>, int))
    ensures r.1 > 0 && r.1 !in table
    ensures r.0.Keys == table.Keys + {r.1}
    ensures r.0[r.1] == row
    ensures forall k :: k in table ==> r.0[k] == table[k]
  {
    var id := FreshId(table.Keys);
    (table[id := row], id)
  }

  /** `DELETE ... WHERE id = k RETURNING id`: the new table and whether a row
      was there. */
  function DeleteRow<T>(table: map<int, T>, k: int): (r: (map<int, T>, bool))
    ensures r.0.Keys == table.Keys - {k}
    ensures forall j :: j in r.0 ==> r.0[j] == table[j]
    ensures r.1 <==> k in table
  {
    (table - {k}, k in table)
  }

  /** `UPDATE ... WHERE id = k RETURNING *` followed by reading the returned
      row: with no row to update, `fetchone()` is `None` and subscripting it
      raises `TypeError`. */
  function UpdateRow<T>(table: map<int, T>, k: int, row: T): (r: Result<map<int, T>>)
    ensures r.Ok? <==> k in table
    ensures r.Err? ==> r.failure.RuntimeFault?
    ensures r.Ok? ==> r.value.Keys == table.Keys && r.value[k] == row
    ensures r.Ok? ==> forall j :: j in table && j != k ==> r.value[j] == table[j]
  {
    if k in table then Ok(table[k := row]) else Err(RuntimeFault(NoRowReturned))
  }

  const NoRowReturned := "'NoneType' object is not subscriptable"

  /** `get_by_id`: the row, or `None` when the id has none. */
  function Lookup<T>(table: map<int, T>, k: Option<int>): (r: Option<T>)
    ensures r.Some? <==> k.Some? && k.value in table
    ensures r.Some? ==> r.value == table[k.value]
  {
    if k.Some? && k.value in table then Some(table[k.value]) else None
  }
}

=== FILE: service.dfy ===
/** `Service` (app/models/service.py): a medspa's bookable service, its
    place in the category -> type -> product hierarchy, its create and
    merge-update rules, and its side of the appointment link table. */
module Services {
  import opened Base
  import opened Schema

  const TypeMismatch := "Type must belong to the specified category"
  const ProductMismatch := "Product must belong to the specified type"
  const NoTypeRow := "'NoneType' object has no attribute 'category_id'"
  const NoProductRow := "'NoneType' object has no attribute 'type_id'"
  const MissingFields := "Missing required fields"
  const NotFound := "Service not found"
  const AddUnsaved := "Cannot add unsaved service to appointment"
  const AppointmentNotFound := "Appointment not found"
  const OtherMedspa := "Service must belong to the same medspa as the appointment"
  const LinkWithoutService := "insert or update on table \"appointment_services\" violates foreign key constraint"
  const DeleteUnsaved := "Cannot delete unsaved Service"

  /** An in-memory `Service` object: every attribute may be `None`, and an
      id that is `None` or `0` marks an unsaved service. */
  datatype ServiceObj = ServiceObj(
    id: Option<int>,
    medspaId: Option<int>,
    categoryId: Option<int>,
    typeId: Option<int>,
    productId: Option<int>,
    name: Option<string>,
    description: Option<string>,
    price: Option<int>,
    duration: Option<int>)

  /** `Service.from_db_row`. */
  function FromRow(id: int, row: Service): ServiceObj {
    ServiceObj(Some(id), Some(row.medspaId), Some(row.categoryId), Some(row.typeId),
               Some(row.productId), Some(row.name), row.description, Some(row.price),
               Some(row.duration))
  }

  /** `Service.get_by_id`. */
  function GetById(st: Store, id: int): (r: Option<ServiceObj>)
    ensures r.Some? <==> id in st.services
    ensures r.Some? ==> r.value.id == Some(id) && r.value.medspaId == Some(st.services[id].medspaId)
  {
    if id in st.services then Some(FromRow(id, st.services[id])) else None
  }

  // ---------------------------------------------------------------------------
  // Hierarchy validation
  // ---------------------------------------------------------------------------

  /** The catalog relation the hierarchy rule asks for: the type row exists
      and belongs to the category, and the product row exists and belongs to
      the type. */
  ghost predicate InHierarchy(st: Store, categoryId: Option<int>, typeId: Option<int>, productId: Option<int>) {
    && typeId.Some? && typeId.value in st.types
    && st.types[typeId.value].categoryId == categoryId
    && productId.Some? && productId.value in st.products
    && st.products[productId.value].typeId == typeId
  }

  /** `Service.validate_hierarchy`. The type is looked up and compared first,
      then the product. A missing row is dereferenced as `None`, which raises
      `AttributeError`, not `ValueError`. */
  function ValidateHierarchy(st: Store, categoryId: Option<int>, typeId: Option<int>, productId: Option<int>): (r: Result<()>)
    ensures r.Ok? <==> InHierarchy(st, categoryId, typeId, productId)
    ensures r == Err(ValueError(TypeMismatch)) <==>
              Lookup(st.types, typeId).Some? && Lookup(st.types, typeId).value.categoryId != categoryId
    ensures r == Err(ValueError(ProductMismatch)) <==>
              && Lookup(st.types, typeId).Some? && Lookup(st.types, typeId).value.categoryId == categoryId
              && Lookup(st.products, productId).Some? && Lookup(st.products, productId).value.typeId != typeId
    ensures r.Err? && r.failure.RuntimeFault? <==>
              || Lookup(st.types, typeId).None?
              || (Lookup(st.types, typeId).value.categoryId == categoryId && Lookup(st.products, productId).None?)
  {
    match Lookup(st.types, typeId)
    case None => Err(RuntimeFault(NoTypeRow))
    case Some(t) =>
      if t.categoryId != categoryId then Err(ValueError(TypeMismatch))
      else
        match Lookup(st.products, productId)
        case None => Err(RuntimeFault(NoProductRow))
        case Some(p) =>
          if p.typeId != typeId then Err(ValueError(ProductMismatch)) else Ok(())
  }

  // ---------------------------------------------------------------------------
  // Save: create and merge-update
  // ---------------------------------------------------------------------------

  /** Create's `all([...])` check: every field but `description` is truthy,
      so a price or duration of 0 counts as missing. */
  predicate HasRequiredFields(obj: ServiceObj) {
    && Truthy(obj.medspaId) && TruthyText(obj.name) && Truthy(obj.price) && Truthy(obj.duration)
    && Truthy(obj.categoryId) && Truthy(obj.typeId) && Truthy(obj.productId)
  }

  /** The row `INSERT INTO services` writes for a complete object. */
  function NewRow(obj: ServiceObj): Service
    requires HasRequiredFields(obj)
  {
    Service(obj.medspaId.value, obj.categoryId.value, obj.typeId.value, obj.productId.value,
            obj.name.value, obj.description, obj.price.value, obj.duration.value)
  }

  /** The row the update's `SET column = COALESCE(%s, column)` leaves: an
      attribute that is `None` keeps the stored value, any other value
      (0 and "" included) replaces it. */
  function Merge(stored: Service, obj: ServiceObj): (row: Service)
    ensures obj.medspaId.None? ==> row.medspaId == stored.medspaId
    ensures obj.medspaId.Some? ==> row.medspaId == obj.medspaId.value
    ensures obj.categoryId.None? ==> row.categoryId == stored.categoryId
    ensures obj.categoryId.Some? ==> row.categoryId == obj.categoryId.value
    ensures obj.typeId.None? ==> row.typeId == stored.typeId
    ensures obj.typeId.Some? ==> row.typeId == obj.typeId.value
    ensures obj.productId.None? ==> row.productId == stored.productId
    ensures obj.productId.Some? ==> row.productId == obj.productId.value
    ensures obj.name.None? ==> row.name == stored.name
    ensures obj.name.Some? ==> row.name == obj.name.value
    ensures obj.description.None? ==> row.description == stored.description
    ensures obj.description.Some? ==> row.description == obj.description
    ensures obj.price.None? ==> row.price == stored.price
    ensures obj.price.Some? ==> row.price == obj.price.value
    ensures obj.duration.None? ==> row.duration == stored.duration
    ensures obj.duration.Some? ==> row.duration == obj.duration.value
  {
    Service(
      Coalesce(obj.medspaId, stored.medspaId),
      Coalesce(obj.categoryId, stored.categoryId),
      Coalesce(obj.typeId, stored.typeId),
      Coalesce(obj.productId, stored.productId),
      Coalesce(obj.name, stored.name),
      if obj.description.Some? then obj.description else stored.description,
      Coalesce(obj.price, stored.price),
      Coalesce(obj.duration, stored.duration))
  }

  /** The create branch of `Service.save`: required fields, then the
      hierarchy, then the insert. Neither failure writes a row. */
  function Create(st: Store, obj: ServiceObj): (r: Result<(Store, ServiceObj)>)
    requires !Truthy(obj.id)
    ensures r == Err(ValueError(MissingFields)) <==> !HasRequiredFields(obj)
    ensures r.Ok? <==> HasRequiredFields(obj) && InHierarchy(st, obj.categoryId, obj.typeId, obj.productId)
    ensures HasRequiredFields(obj) && r.Err? ==>
              r == ValidateHierarchy(st, obj.categoryId, obj.typeId, obj.productId).PropagateFailure()
    ensures r.Ok? ==> var (st', saved) := r.value;
              && saved.id.Some? && saved.id.value > 0 && saved.id.value !in st.services
              && saved == obj.(id := saved.id)
              && st' == st.(services := st.services[saved.id.value := NewRow(obj)])
  {
    if !HasRequiredFields(obj) then Err(ValueError(MissingFields))
    else
      var _ :- ValidateHierarchy(st, obj.categoryId, obj.typeId, obj.productId);
      var (services, k) := InsertRow(st.services, NewRow(obj));
      Ok((st.(services := services), obj.(id := Some(k))))
  }

  /** The hierarchy triple the update validates: each id given, else stored. */
  function MergedTriple(stored: Service, obj: ServiceObj): (int, int, int) {
    (Coalesce(obj.categoryId, stored.categoryId),
     Coalesce(obj.typeId, stored.typeId),
     Coalesce(obj.productId, stored.productId))
  }

  /** Whether the update re-runs the hierarchy check: only when the merged
      category, type and product are all truthy. */
  predicate RevalidatesHierarchy(stored: Service, obj: ServiceObj) {
    var (c, t, p) := MergedTriple(stored, obj);
    c != 0 && t != 0 && p != 0
  }

  /** The update branch of `Service.save`: an unknown id is "Service not
      found"; the merged triple is re-validated when fully populated; then
      every column is COALESCEd. The link table is never touched. */
  function Update(st: Store, obj: ServiceObj): (r: Result<(Store, ServiceObj)>)
    requires Truthy(obj.id)
    ensures obj.id.value !in st.services ==> r == Err(ValueError(NotFound))
    ensures r.Ok? <==>
              && obj.id.value in st.services
              && (RevalidatesHierarchy(st.services[obj.id.value], obj) ==>
                    var (c, t, p) := MergedTriple(st.services[obj.id.value], obj);
                    InHierarchy(st, Some(c), Some(t), Some(p)))
    ensures r.Ok? ==> var (st', saved) := r.value;
              && saved.id == obj.id
              && saved == (if RevalidatesHierarchy(st.services[obj.id.value], obj) then
                             var (c, t, p) := MergedTriple(st.services[obj.id.value], obj);
                             obj.(categoryId := Some(c), typeId := Some(t), productId := Some(p))
                           else obj)
              && st' == st.(services := st.services[obj.id.value := Merge(st.services[obj.id.value], obj)])
  {
    var id := obj.id.value;
    if id !in st.services then Err(ValueError(NotFound))
    else
      var stored := st.services[id];
      var (c, t, p) := MergedTriple(stored, obj);
      var checked :=
        if c != 0 && t != 0 && p != 0 then
          var _ :- ValidateHierarchy(st, Some(c), Some(t), Some(p));
          Ok(obj.(categoryId := Some(c), typeId := Some(t), productId := Some(p)))
        else Ok(obj);
      var saved :- checked;
      Ok((st.(services := st.services[id := Merge(stored, saved)]), saved))
  }

  /** `Service.save`: update when the object has a truthy id, create otherwise. */
  function Save(st: Store, obj: ServiceObj): (r: Result<(Store, ServiceObj)>)
    ensures Truthy(obj.id) ==> r == Update(st, obj)
    ensures !Truthy(obj.id) ==> r == Create(st, obj)
  {
    if Truthy(obj.id) then Update(st, obj) else Create(st, obj)
  }

  // ---------------------------------------------------------------------------
  // The link table, seen from the service
  // ---------------------------------------------------------------------------

  /** `Service.add_to_appointment`: refuses an unsaved service, an unknown
      appointment and an appointment of another medspa, in that order; then
      `INSERT ... ON CONFLICT DO NOTHING`, reporting whether a row was added.
      A service id with no row violates the link table's foreign key. */
  function AddToAppointment(st: Store, svc: ServiceObj, a: int): (r: Result<(Store, bool)>)
    ensures !Truthy(svc.id) ==> r == Err(ValueError(AddUnsaved))
    ensures Truthy(svc.id) && a !in st.appointments ==> r == Err(ValueError(AppointmentNotFound))
    ensures Truthy(svc.id) && a in st.appointments && Some(st.appointments[a].medspaId) != svc.medspaId ==>
              r == Err(ValueError(OtherMedspa))
    ensures r.Ok? <==>
              && Truthy(svc.id) && a in st.appointments && Some(st.appointments[a].medspaId) == svc.medspaId
              && svc.id.value in st.services
    ensures r.Ok? ==> var (st', added) := r.value;
              && st' == st.(links := st.links + {(a, svc.id.value)})
              && (added <==> (a, svc.id.value) !in st.links)
  {
    if !Truthy(svc.id) then Err(ValueError(AddUnsaved))
    else if a !in st.appointments then Err(ValueError(AppointmentNotFound))
    else if Some(st.appointments[a].medspaId) != svc.medspaId then Err(ValueError(OtherMedspa))
    else if svc.id.value !in st.services then Err(RuntimeFault(LinkWithoutService))
    else
      var link := (a, svc.id.value);
      Ok((st.(links := st.links + {link}), link !in st.links))
  }

  /** Attaching is idempotent: repeating a successful attach succeeds,
      changes nothing and reports no new link. */
  lemma AttachIsIdempotent(st: Store, svc: ServiceObj, a: int)
    requires AddToAppointment(st, svc, a).Ok?
    ensures var st' := AddToAppointment(st, svc, a).value.0;
            AddToAppointment(st', svc, a) == Ok((st', false))
  {
  }

  /** `Service.remove_from_appointment`: `false` for an unsaved service;
      otherwise deletes exactly the pair and reports whether it was there. */
  function RemoveFromAppointment(st: Store, svc: ServiceObj, a: int): (r: (Store, bool))
    ensures !Truthy(svc.id) ==> r == (st, false)
    ensures Truthy(svc.id) ==>
              && r.0 == st.(links := st.links - {(a, svc.id.value)})
              && (r.1 <==> (a, svc.id.value) in st.links)
  {
    if !Truthy(svc.id) then (st, false)
    else
      var link := (a, svc.id.value);
      (st.(links := st.links - {link}), link in st.links)
  }

  /** `Service.delete`: refused for an unsaved service; otherwise removes
      every link of the service, then the row, and reports whether the row
      existed. */
  function Delete(st: Store, svc: ServiceObj): (r: Result<(Store, bool)>)
    ensures !Truthy(svc.id) ==> r == Err(ValueError(DeleteUnsaved))
    ensures Truthy(svc.id) ==> r.Ok?
    ensures r.Ok? ==> var (st', existed) := r.value;
              && (existed <==> svc.id.value in st.services)
              && st'.services.Keys == st.services.Keys - {svc.id.value}
              && (forall s :: s in st'.services ==> st'.services[s] == st.services[s])
              && (forall l :: l in st'.links <==> l in st.links && l.1 != svc.id.value)
              && st' == st.(services := st'.services, links := st'.links)
  {
    if !Truthy(svc.id) then Err(ValueError(DeleteUnsaved))
    else
      var s := svc.id.value;
      var links := set l | l in st.links && l.1 != s;
      var (services, existed) := DeleteRow(st.services, s);
      Ok((st.(links := links, services := services), existed))
  }

  /** `Service.get_upcoming_appointments` at instant `now`: none for an
      unsaved service; otherwise the linked appointments that start after
      `now` and are still scheduled. A link to an appointment with no row is
      dereferenced as `None`, which raises. */
  function UpcomingAppointments(st: Store, svc: ServiceObj, now: int): (r: Result<set<int>>)
    ensures !Truthy(svc.id) ==> r == Ok({})
    ensures Truthy(svc.id) ==>
              (r.Ok? <==> forall a :: (a, svc.id.value) in st.links ==> a in st.appointments)
    ensures Truthy(svc.id) && r.Ok? ==>
              forall a :: a in r.value <==>
                && (a, svc.id.value) in st.links
                && st.appointments[a].startTime > now
                && st.appointments[a].status == Scheduled
  {
    if !Truthy(svc.id) then Ok({})
    else
      var linked := LinkedAppointments(st, svc.id.value);
      if exists a :: a in linked && a !in st.appointments then
        Err(RuntimeFault("'NoneType' object has no attribute 'start_time'"))
      else
        Ok(set a | a in linked && st.appointments[a].startTime > now && st.appointments[a].status == Scheduled)
  }
}

=== FILE: service_product.dfy ===
/** `ServiceProduct` (app/models/service_product.py): the leaf of the catalog
    hierarchy, pointing up to its type and across to its supplier. */
module ServiceProducts {
  import opened Base
  import opened Schema

  const NameRequired := "Product name is required"
  const TypeRequired := "Product must be associated with a type"
  const SupplierRequired := "Product must be associated with a supplier"
  const DeleteUnsaved := "Cannot delete unsaved ServiceProduct"

  /** `ServiceProduct.get_by_id`. */
  function GetById(st: Store, id: Option<int>): (r: Option<Product>)
    ensures r.None? <==> id.None? || id.value !in st.products
    ensures r.Some? ==> r.value == st.products[id.value]
  {
    Lookup(st.products, id)
  }

  /** `ServiceProduct.save` for an object with attributes `id` and `p`: a falsy
      id inserts after checking name, then type, then supplier; a truthy id
      overwrites the row with no check. */
  function Save(st: Store, id: Option<int>, p: Product): (r: Result<(Store, int)>)
    ensures !Truthy(id) && !TruthyText(p.name) ==> r == Err(ValueError(NameRequired))
    ensures !Truthy(id) && TruthyText(p.name) && !Truthy(p.typeId) ==>
              r == Err(ValueError(TypeRequired))
    ensures !Truthy(id) && TruthyText(p.name) && Truthy(p.typeId) && !Truthy(p.supplierId) ==>
              r == Err(ValueError(SupplierRequired))
    ensures !Truthy(id) ==> (r.Ok? <==> TruthyText(p.name) && Truthy(p.typeId) && Truthy(p.supplierId))
    ensures Truthy(id) ==> (r.Ok? <==> id.value in st.products)
    ensures Truthy(id) && r.Err? ==> r.failure.RuntimeFault?
    ensures r.Ok? ==> var (st', k) := r.value;
              && GetById(st', Some(k)) == Some(p)
              && st' == st.(products := st'.products)
              && st'.products.Keys == st.products.Keys + {k}
              && (forall j :: j in st.products && j != k ==> st'.products[j] == st.products[j])
              && (Truthy(id) ==> k == id.value)
              && (!Truthy(id) ==> k > 0 && k !in st.products)
  {
    if Truthy(id) then
      var products :- UpdateRow(st.products, id.value, p);
      Ok((st.(products := products), id.value))
    else if !TruthyText(p.name) then
      Err(ValueError(NameRequired))
    else if !Truthy(p.typeId) then
      Err(ValueError(TypeRequired))
    else if !Truthy(p.supplierId) then
      Err(ValueError(SupplierRequired))
    else
      var (products, k) := InsertRow(st.products, p);
      Ok((st.(products := products), k))
  }

  /** `ServiceProduct.type`: `None` without a lookup for a falsy type id. */
  function TypeOf(st: Store, p: Product): (r: Option<ServiceType>)
    ensures !Truthy(p.typeId) ==> r.None?
    ensures Truthy(p.typeId) ==> r == Lookup(st.types, p.typeId)
  {
    if !Truthy(p.typeId) then None else Lookup(st.types, p.typeId)
  }

  /** `ServiceProduct.supplier`: `None` without a lookup for a falsy supplier id. */
  function SupplierOf(st: Store, p: Product): (r: Option<Supplier>)
    ensures !Truthy(p.supplierId) ==> r.None?
    ensures Truthy(p.supplierId) ==> r == Lookup(st.suppliers, p.supplierId)
  {
    if !Truthy(p.supplierId) then None else Lookup(st.suppliers, p.supplierId)
  }

  /** `ServiceProduct.delete`: refused for an unsaved product, otherwise
      removes the row and reports whether it existed. */
  function Delete(st: Store, id: Option<int>): (r: Result<(Store, bool)>)
    ensures !Truthy(id) ==> r == Err(ValueError(DeleteUnsaved))
    ensures Truthy(id) ==> r.Ok?
    ensures r.Ok? ==> var (st', existed) := r.value;
              && GetById(st', id).None?
              && (existed <==> GetById(st, id).Some?)
              && st' == st.(products := st'.products)
              && st'.products.Keys == st.products.Keys - {id.value}
              && (forall j :: j in st.products && Some(j) != id ==> j in st'.products && st'.products[j] == st.products[j])
  {
    if !Truthy(id) then Err(ValueError(DeleteUnsaved))
    else
      var (products, existed) := DeleteRow(st.products, id.value);
      Ok((st.(products := products), existed))
  }
}

=== FILE: service_product_supplier.dfy ===
/** `ServiceProductSupplier` (app/models/service_product_supplier.py): the
    vendor a product comes from; the one catalog row whose deletion is
    guarded. */
module Suppliers {
  import opened Base
  import opened Schema

  const NameRequired := "Supplier name is required"
  const DeleteUnsaved := "Cannot delete unsaved ServiceProductSupplier"

  /** The refusal message, which carries the number of referencing products. */
  function InUse(count: nat): string {
    "Cannot delete supplier: " + DecimalText(count) + " products are associated with this supplier"
  }

  /** `ServiceProductSupplier.get_by_id`. */
  function GetById(st: Store, id: Option<int>): (r: Option<Supplier>)
    ensures r.None? <==> id.None? || id.value !in st.suppliers
    ensures r.Some? ==> r.value == st.suppliers[id.value]
  {
    Lookup(st.suppliers, id)
  }

  /** `ServiceProductSupplier.save`: a falsy id inserts after checking the
      name; a truthy id overwrites the row with no check. */
  function Save(st: Store, id: Option<int>, s: Supplier): (r: Result<(Store, int)>)
    ensures !Truthy(id) ==> (r.Ok? <==> TruthyText(s.name))
    ensures !Truthy(id) && !TruthyText(s.name) ==> r == Err(ValueError(NameRequired))
    ensures Truthy(id) ==> (r.Ok? <==> id.value in st.suppliers)
    ensures Truthy(id) && r.Err? ==> r.failure.RuntimeFault?
    ensures r.Ok? ==> var (st', k) := r.value;
              && GetById(st', Some(k)) == Some(s)
              && st' == st.(suppliers := st'.suppliers)
              && st'.suppliers.Keys == st.suppliers.Keys + {k}
              && (forall j :: j in st.suppliers && j != k ==> st'.suppliers[j] == st.suppliers[j])
              && (Truthy(id) ==> k == id.value)
              && (!Truthy(id) ==> k > 0 && k !in st.suppliers)
  {
    if Truthy(id) then
      var suppliers :- UpdateRow(st.suppliers, id.value, s);
      Ok((st.(suppliers := suppliers), id.value))
    else if !TruthyText(s.name) then
      Err(ValueError(NameRequired))
    else
      var (suppliers, k) := InsertRow(st.suppliers, s);
      Ok((st.(suppliers := suppliers), k))
  }

  /** `ServiceProductSupplier.products`: the products naming this supplier,
      none for an unsaved supplier. */
  function Products(st: Store, id: Option<int>): (ps: set<int>)
    ensures !Truthy(id) ==> ps == {}
    ensures Truthy(id) ==> forall p :: p in ps <==> p in st.products && st.products[p].supplierId == id
  {
    if !Truthy(id) then {}
    else set p | p in st.products && st.products[p].supplierId == id
  }

  /** `ServiceProductSupplier.delete`: refused for an unsaved supplier and for
      one that any product still names; otherwise removes the row and reports
      whether it existed. */
  function Delete(st: Store, id: Option<int>): (r: Result<(Store, bool)>)
    ensures !Truthy(id) ==> r == Err(ValueError(DeleteUnsaved))
    ensures Truthy(id) ==>
              (r.Ok? <==> forall p :: p in st.products ==> st.products[p].supplierId != id)
    ensures r.Err? ==> r.failure.ValueError?
    ensures Truthy(id) && r.Err? ==> r == Err(ValueError(InUse(|Products(st, id)|)))
    ensures r.Ok? ==> var (st', existed) := r.value;
              && GetById(st', id).None?
              && (existed <==> GetById(st, id).Some?)
              && st' == st.(suppliers := st'.suppliers)
              && st'.suppliers.Keys == st.suppliers.Keys - {id.value}
              && (forall j :: j in st.suppliers && Some(j) != id ==> j in st'.suppliers && st'.suppliers[j] == st.suppliers[j])
  {
    if !Truthy(id) then Err(ValueError(DeleteUnsaved))
    else
      var referencing := Products(st, id);
      if referencing != {} then
        NonEmpty(referencing);
        Err(ValueError(InUse(|referencing|)))
      else
        var (suppliers, existed) := DeleteRow(st.suppliers, id.value);
        Ok((st.(suppliers := suppliers), existed))
  }
}

=== FILE: service_type.dfy ===
/** `ServiceType` (app/models/service_type.py): the middle level of the
    category -> type -> product catalog. */
module ServiceTypes {
  import opened Base
  import opened Schema

  const NameRequired := "Type name is required"
  const CategoryRequired := "Type must be associated with a category"
  const DeleteUnsaved := "Cannot delete unsaved ServiceType"

  /** `ServiceType.get_by_id`. */
  function GetById(st: Store, id: Option<int>): (r: Option<ServiceType>)
    ensures r.None? <==> id.None? || id.value !in st.types
    ensures r.Some? ==> r.value == st.types[id.value]
  {
    Lookup(st.types, id)
  }

  /** `ServiceType.save` for an object with attributes `id` and `t`: a falsy
      id inserts after checking name, then category; a truthy id overwrites
      the row with no check at all. The result is the new store and the id
      of the saved row. */
  function Save(st: Store, id: Option<int>, t: ServiceType): (r: Result<(Store, int)>)
    ensures !Truthy(id) && !TruthyText(t.name) ==> r == Err(ValueError(NameRequired))
    ensures !Truthy(id) && TruthyText(t.name) && !Truthy(t.categoryId) ==>
              r == Err(ValueError(CategoryRequired))
    ensures !Truthy(id) ==> (r.Ok? <==> TruthyText(t.name) && Truthy(t.categoryId))
    ensures Truthy(id) ==> (r.Ok? <==> id.value in st.types)
    ensures Truthy(id) && r.Err? ==> r.failure.RuntimeFault?
    ensures r.Ok? ==> var (st', k) := r.value;
              && GetById(st', Some(k)) == Some(t)
              && st' == st.(types := st'.types)
              && st'.types.Keys == st.types.Keys + {k}
              && (forall j :: j in st.types && j != k ==> st'.types[j] == st.types[j])
              && (Truthy(id) ==> k == id.value)
              && (!Truthy(id) ==> k > 0 && k !in st.types)
  {
    if Truthy(id) then
      var types :- UpdateRow(st.types, id.value, t);
      Ok((st.(types := types), id.value))
    else if !TruthyText(t.name) then
      Err(ValueError(NameRequired))
    else if !Truthy(t.categoryId) then
      Err(ValueError(CategoryRequired))
    else
      var (types, k) := InsertRow(st.types, t);
      Ok((st.(types := types), k))
  }

  /** `ServiceType.category`: no lookup at all for a falsy category id. */
  function Category(st: Store, t: ServiceType): (r: Option<Category>)
    ensures !Truthy(t.categoryId) ==> r.None?
    ensures Truthy(t.categoryId) && t.categoryId.value in st.categories ==>
              r == Some(st.categories[t.categoryId.value])
    ensures Truthy(t.categoryId) && t.categoryId.value !in st.categories ==> r.None?
  {
    if !Truthy(t.categoryId) then None else Lookup(st.categories, t.categoryId)
  }

  /** `ServiceType.products`: the products whose `type_id` is this type's id,
      none for an unsaved type. */
  function Products(st: Store, id: Option<int>): (ps: set<int>)
    ensures !Truthy(id) ==> ps == {}
    ensures Truthy(id) ==> forall p :: p in ps <==> p in st.products && st.products[p].typeId == id
  {
    if !Truthy(id) then {}
    else set p | p in st.products && st.products[p].typeId == id
  }

  /** `ServiceType.delete`: refused for an unsaved type, otherwise removes the
      row and reports whether it existed. */
  function Delete(st: Store, id: Option<int>): (r: Result<(Store, bool)>)
    ensures !Truthy(id) ==> r == Err(ValueError(DeleteUnsaved))
    ensures Truthy(id) ==> r.Ok?
    ensures r.Ok? ==> var (st', existed) := r.value;
              && GetById(st', id).None?
              && (existed <==> GetById(st, id).Some?)
              && st' == st.(types := st'.types)
              && st'.types.Keys == st.types.Keys - {id.value}
              && (forall j :: j in st.types && Some(j) != id ==> j in st'.types && st'.types[j] == st.types[j])
  {
    if !Truthy(id) then Err(ValueError(DeleteUnsaved))
    else
      var (types, existed) := DeleteRow(st.types, id.value);
      Ok((st.(types := types), existed))
  }
}

=== FILE: services_resource.dfy ===
/** The service request handlers (app/resources/services.py): create and
    update, each one transaction over `Service.save`. */
module ServicesResource {
  import opened Base
  import opened Schema
  import opened Handlers
  import Services

  const NotFound := "Service not found"

  datatype Body = ErrorBody(error: string) | ServiceBody(service: Services.ServiceObj)

  /** The JSON body of a create or update request, one entry per column the
      client may send. */
  datatype ServiceRequest = ServiceRequest(
    medspaId: Field<int>,
    categoryId: Field<int>,
    typeId: Field<int>,
    productId: Field<int>,
    name: Field<string>,
    description: Field<string>,
    price: Field<int>,
    duration: Field<int>)

  /** `Service(**data)`: an omitted key is the constructor's `None`. */
  function Draft(req: ServiceRequest): (obj: Services.ServiceObj)
    ensures obj.id.None?
    ensures obj.medspaId == Given(req.medspaId) && obj.categoryId == Given(req.categoryId)
    ensures obj.typeId == Given(req.typeId) && obj.productId == Given(req.productId)
    ensures obj.name == Given(req.name) && obj.description == Given(req.description)
    ensures obj.price == Given(req.price) && obj.duration == Given(req.duration)
  {
    Services.ServiceObj(None, Given(req.medspaId), Given(req.categoryId), Given(req.typeId),
                        Given(req.productId), Given(req.name), Given(req.description),
                        Given(req.price), Given(req.duration))
  }

  /** The `setattr` loop of update: every key sent overwrites the attribute,
      `null` included; the others keep the loaded value. */
  function Amend(svc: Services.ServiceObj, req: ServiceRequest): (obj: Services.ServiceObj)
    ensures obj.id == svc.id
    ensures obj.medspaId == Apply(req.medspaId, svc.medspaId)
    ensures obj.categoryId == Apply(req.categoryId, svc.categoryId)
    ensures obj.typeId == Apply(req.typeId, svc.typeId)
    ensures obj.productId == Apply(req.productId, svc.productId)
    ensures obj.name == Apply(req.name, svc.name)
    ensures obj.description == Apply(req.description, svc.description)
    ensures obj.price == Apply(req.price, svc.price)
    ensures obj.duration == Apply(req.duration, svc.duration)
  {
    svc.(medspaId := Apply(req.medspaId, svc.medspaId),
         categoryId := Apply(req.categoryId, svc.categoryId),
         typeId := Apply(req.typeId, svc.typeId),
         productId := Apply(req.productId, svc.productId),
         name := Apply(req.name, svc.name),
         description := Apply(req.description, svc.description),
         price := Apply(req.price, svc.price),
         duration := Apply(req.duration, svc.duration))
  }

  /** `services.create`: the draft goes through the create rules of
      `Service.save`; a `ValueError` is a 400 and anything else a 500, both
      rolled back. The service echoed on success is exactly the stored row. */
  function Create(st: Store, req: ServiceRequest): (r: Reply<Body>)
    ensures r.code == 201 || r.code == 400 || r.code == 500
    ensures r.code != 201 ==> r.store == st && r.body.ErrorBody?
    ensures !Services.HasRequiredFields(Draft(req)) ==> r.code == 400 && r.body == ErrorBody(Services.MissingFields)
    ensures r.code == 201 <==>
              Services.HasRequiredFields(Draft(req)) &&
              Services.InHierarchy(st, Given(req.categoryId), Given(req.typeId), Given(req.productId))
    ensures Services.HasRequiredFields(Draft(req)) ==>
              var c, t, p := Given(req.categoryId), Given(req.typeId).value, Given(req.productId).value;
              && (t !in st.types ==> r.code == 500)
              && (t in st.types && st.types[t].categoryId != c ==>
                    r.code == 400 && r.body == ErrorBody(Services.TypeMismatch))
              && (t in st.types && st.types[t].categoryId == c && p !in st.products ==> r.code == 500)
              && ((t in st.types && st.types[t].categoryId == c && p in st.products && st.products[p].typeId != Some(t))
                    ==> r.code == 400 && r.body == ErrorBody(Services.ProductMismatch))
    ensures r.code == 201 ==>
              && r.body.ServiceBody? && r.body.service.id.Some?
              && var id := r.body.service.id.value;
              && id > 0 && id !in st.services
              && r.store == st.(services := r.store.services)
              && r.store.services.Keys == st.services.Keys + {id}
              && r.store.services[id] == Services.NewRow(Draft(req))
              && (forall s :: s in st.services ==> r.store.services[s] == st.services[s])
              && r.body.service == Services.FromRow(id, r.store.services[id])
  {
    match Services.Save(st, Draft(req))
    case Err(f) => Reply(FailureCode(f), ErrorBody(f.message), st)
    case Ok((saved, svc)) => Reply(201, ServiceBody(svc), saved)
  }

  /** `services.update` as written: 404 for an unknown id, then the amended
      object goes through the merge-update rules of `Service.save`, and the
      answer echoes the object, not the row. A column sent as `null` keeps
      its stored value, yet is answered as `null`. */
  function UpdateAsWritten(st: Store, id: int, req: ServiceRequest): (r: Reply<Body>)
    ensures id !in st.services ==> r.code == 404 && r.store == st && r.body == ErrorBody(NotFound)
    ensures r.code != 200 ==> r.store == st && r.body.ErrorBody?
    ensures r.code == 200 && id != 0 ==>
              && r.body.ServiceBody? && id in r.store.services
              && r.store == st.(services := st.services[id := r.store.services[id]])
              && r.store.services[id] ==
                   Services.Merge(st.services[id], Amend(Services.FromRow(id, st.services[id]), req))
    ensures id in st.services && id != 0 ==>
              var obj := Amend(Services.FromRow(id, st.services[id]), req);
              var (c, t, p) := Services.MergedTriple(st.services[id], obj);
              && (!Services.RevalidatesHierarchy(st.services[id], obj) ==> r.code == 200)
              && (Services.RevalidatesHierarchy(st.services[id], obj) ==>
                    && (r.code == 200 <==> Services.InHierarchy(st, Some(c), Some(t), Some(p)))
                    && (t !in st.types ==> r.code == 500)
                    && (t in st.types && st.types[t].categoryId != Some(c) ==>
                          r.code == 400 && r.body == ErrorBody(Services.TypeMismatch))
                    && (t in st.types && st.types[t].categoryId == Some(c) && p !in st.products ==> r.code == 500)
                    && ((t in st.types && st.types[t].categoryId == Some(c) && p in st.products && st.products[p].typeId != Some(t))
                          ==> r.code == 400 && r.body == ErrorBody(Services.ProductMismatch)))
    ensures r.code == 200 && id != 0 && req.price == Sent(None) ==>
              r.body.service.price.None? && r.store.services[id].price == st.services[id].price
  {
    if id !in st.services then Reply(404, ErrorBody(NotFound), st)
    else
      match Services.Save(st, Amend(Services.FromRow(id, st.services[id]), req))
      case Err(f) => Reply(FailureCode(f), ErrorBody(f.message), st)
      case Ok((saved, svc)) => Reply(200, ServiceBody(svc), saved)
  }

  /** `services.update` answering with the row the update left, which the
      handler evidently means to report; the store it leaves is that of
      `UpdateAsWritten`. */
  function Update(st: Store, id: int, req: ServiceRequest): (r: Reply<Body>)
    ensures id !in st.services ==> r.code == 404 && r.store == st && r.body == ErrorBody(NotFound)
    ensures r.code != 200 ==> r.store == st && r.body.ErrorBody?
    ensures r.code == UpdateAsWritten(st, id, req).code && r.store == UpdateAsWritten(st, id, req).store
    ensures r.code == 200 && id != 0 ==>
              && id in r.store.services
              && r.body == ServiceBody(Services.FromRow(id, r.store.services[id]))
  {
    var written := UpdateAsWritten(st, id, req);
    if written.code != 200 || id !in written.store.services then written
    else Reply(200, ServiceBody(Services.FromRow(id, written.store.services[id])), written.store)
  }

  /** Every `null` of the request replaced by leaving the key out. */
  function NullsOmitted(req: ServiceRequest): (clean: ServiceRequest)
    ensures Given(clean.price) == Given(req.price) && clean.price != Sent(None)
    ensures Given(clean.description) == Given(req.description) && clean.description != Sent(None)
  {
    ServiceRequest(Unsend(req.medspaId), Unsend(req.categoryId), Unsend(req.typeId), Unsend(req.productId),
                   Unsend(req.name), Unsend(req.description), Unsend(req.price), Unsend(req.duration))
  }

  function Unsend<T>(f: Field<T>): Field<T> {
    if f == Sent(None) then Omitted else f
  }

  /** Under COALESCE a `null` cannot clear a column: an update that sends
      `null` answers with the same code and leaves the same store as one that
      leaves those keys out. */
  lemma NullIsOmitted(st: Store, id: int, req: ServiceRequest)
    requires id != 0
    ensures UpdateAsWritten(st, id, req).code == UpdateAsWritten(st, id, NullsOmitted(req)).code
    ensures UpdateAsWritten(st, id, req).store == UpdateAsWritten(st, id, NullsOmitted(req)).store
  {
  }

  /** One stored service of medspa 1, filed under category 1, type 1 and
      product 1. */
  function EchoScenarioStore(): Store {
    Store(map[1 := Medspa(Some("Glow"), Some("1 Main St"), Some("555-0100"), Some("desk@glow.example"))],
          map[1 := Category(Some("Injectables"))], map[1 := ServiceType(Some(1), Some("Neurotoxin"))],
          map[1 := Product(Some(1), None, Some("Botox Cosmetic"))], map[],
          map[10 := Service(1, 1, 1, 1, "Botox", Some("20 units"), 30000, 30)],
          map[], {})
  }

  /** Renaming service 10 while sending `"price": null`: the stored price
      stays 30000, the update as written answers `price: null`, and the
      corrected handler answers 30000. */
  lemma EchoScenario()
    ensures var st := EchoScenarioStore();
            var req := ServiceRequest(Omitted, Omitted, Omitted, Omitted, Sent(Some("Botox 50")), Omitted,
                                      Sent(None), Omitted);
            && UpdateAsWritten(st, 10, req).code == 200
            && UpdateAsWritten(st, 10, req).store.services[10].price == 30000
            && UpdateAsWritten(st, 10, req).body.service.price == None
            && Update(st, 10, req).body.service.price == Some(30000)
  {
  }
}

=== FILE: totals.dfy ===
/** Sums of a service column over a set of service ids: the value of
    `SELECT COALESCE(SUM(s.column), 0)` over a join that yields each service
    once, and an independent list-based reference for it. */
module Totals {
  import opened Base
  import opened Schema

  /** The two columns an appointment totals. */
  datatype Measure = Duration | Price

  function Weight(s: Service, k: Measure): int {
    match k
    case Duration => s.duration
    case Price => s.price
  }

  /** The sum of column `k` over the rows of `ids`, zero for no rows. */
  function SumOver(ids: set<int>, rows: map<int, Service>, k: Measure): int
    requires ids <= rows.Keys
    decreases ids
  {
    if ids == {} then 0
    else
      var m := Max(ids);
      Weight(rows[m], k) + SumOver(ids - {m}, rows, k)
  }

  /** Adding one id that was not yet counted adds exactly its row's value. */
  lemma {:induction false} SumOverInsert(ids: set<int>, x: int, rows: map<int, Service>, k: Measure)
    requires ids <= rows.Keys && x in rows && x !in ids
    ensures SumOver(ids + {x}, rows, k) == Weight(rows[x], k) + SumOver(ids, rows, k)
    decreases ids
  {
    var u := ids + {x};
    var m := Max(u);
    if m == x {
      assert u - {m} == ids;
    } else {
      assert m in ids;
      assert Max(ids) == m;
      assert u - {m} == (ids - {m}) + {x};
      SumOverInsert(ids - {m}, x, rows, k);
    }
  }

  /** Removing a counted id subtracts exactly its row's value. */
  lemma SumOverRemove(ids: set<int>, x: int, rows: map<int, Service>, k: Measure)
    requires ids <= rows.Keys && x in ids
    ensures SumOver(ids - {x}, rows, k) == SumOver(ids, rows, k) - Weight(rows[x], k)
  {
    assert (ids - {x}) + {x} == ids;
    SumOverInsert(ids - {x}, x, rows, k);
  }

  /** The elements of a list, as a set. */
  function Elements(xs: seq<int>): (s: set<int>)
    ensures forall x :: x in s <==> x in xs
  {
    set x | x in xs
  }

  predicate Distinct(xs: seq<int>) {
    forall i, j :: 0 <= i < j < |xs| ==> xs[i] != xs[j]
  }

  /** The list with each element kept at its first occurrence only. */
  function FirstOccurrences(xs: seq<int>): (d: seq<int>)
    ensures Distinct(d)
    ensures Elements(d) == Elements(xs)
  {
    if xs == [] then []
    else
      var d := FirstOccurrences(xs[..|xs| - 1]);
      var last := xs[|xs| - 1];
      assert xs == xs[..|xs| - 1] + [last];
      if last in d then d else d + [last]
  }

  /** Adding up column `k` for each listed id in turn. */
  function SumList(xs: seq<int>, rows: map<int, Service>, k: Measure): int
    requires forall i :: 0 <= i < |xs| ==> xs[i] in rows
  {
    if xs == [] then 0
    else SumList(xs[..|xs| - 1], rows, k) + Weight(rows[xs[|xs| - 1]], k)
  }

  /** For a list without repetitions, adding up the listed rows one by one is
      the set sum over the listed ids. */
  lemma {:induction false} SumListIsSumOver(xs: seq<int>, rows: map<int, Service>, k: Measure)
    requires forall i :: 0 <= i < |xs| ==> xs[i] in rows
    requires Distinct(xs)
    ensures Elements(xs) <= rows.Keys
    ensures SumList(xs, rows, k) == SumOver(Elements(xs), rows, k)
  {
    if xs != [] {
      var init := xs[..|xs| - 1];
      var last := xs[|xs| - 1];
      assert xs == init + [last];
      assert Distinct(init);
      SumListIsSumOver(init, rows, k);
      assert last !in Elements(init);
      assert Elements(xs) == Elements(init) + {last};
      SumOverInsert(Elements(init), last, rows, k);
    }
  }
}
